=== FILE: README.md ===
# Murli Organic storefront — a Dafny model of its cart, pricing and payment core

The storefront sells a handful of oils. Its logic lives in a few React
components and one Express server. This project models that logic as pure
Dafny functions over immutable datatypes and proves what each piece
promises:

- **Cart** (`cart.dfy`). This is the client-side cart of the listing pages.
  - `addToCart` comes in two versions: one bumps the first line with the product's id (find-index), the other bumps every line with that id (map).
  - `removeFromCart` decrements the product's line and then drops every line whose quantity is no longer positive.
  - The two `addToCart` versions are shown to agree on carts with unique ids, and to differ on a cart with a duplicated id.
- **Catalog** (`catalog.dfy`). This is the product search: a case-insensitive substring match over the built-in four-product catalog or over fetched products.
- **Pricing** (`pricing.dfy`). This is the checkout breakdown.
  - It computes the subtotal, a 10% discount on subtotals strictly above ₹1000, 5% GST on the discounted amount, and the total.
  - The total is converted to whole paise with `Math.round`, modelled as `floor(x + 1/2)`.
  - Money is exact: prices are whole rupees (`int`) and the derived amounts are `real`.
- **CheckoutFlow** (`checkout.dfy`). This covers the checkout page.
  - It models what the page renders and the "Pay Now" flow with its early exits.
  - It models Bearer-token normalisation.
  - It models the rule that the stored cart is cleared only on a verified success.
- **Server** (`server.dfy`, `wire.dfy`). This covers the Express server's request decisions and the JSON they exchange.
  - `authenticate` takes the token from the header.
  - `/create-order` builds the order options and handles a gateway failure.
  - `/verify-payment` checks the HMAC signature.
  - `/checkout` makes the cart-exists decision over the stored cart documents.
- **EndToEnd** (`end_to_end.dfy`). This runs the page's flow against the server's own endpoints. With the script loaded and a usable token, the cart is cleared exactly when the token verifies, the gateway creates the order, the user pays, and the returned signature is the HMAC of `order_id|payment_id` under the key secret.

Some parts of the system are not modelled: the outside world and the libraries behind it. These are JWT verification, HMAC-SHA256, the gateway's order creation and payment window, the clock, whether the gateway script loaded, and the stored token. Each appears as a parameter (a function or a value), so every property holds whatever they do.

`wrappers.dfy` (Option), `sequences.dfy` (order-preserving sub-sequences)
and `text.dfy` (`startsWith`, `includes`, `toLowerCase`, `split`, decimal
digits) are the small helpers these rest on.

Notes on the code, which the model follows as written:

- GST is not rounded (`Checkout.jsx:38-40`).
- The amount charged is rounded once, by `Math.round` on the paise amount, which sends halves up (`Checkout.jsx:77`). The page displays every amount with `toFixed(2)` (`Checkout.jsx:196-217`); that display formatting is not modelled.
- Above the threshold the total is below the subtotal (`Pricing.TotalAgainstSubtotal`): the discount outweighs the GST.
- Nothing validates prices or quantities.
- The signature comparison is ordinary string equality.

## Model

| member | source | states |
|---|---|---|
| Cart.FindIndex | client/src/components/ProductListingWithCart.jsx:57 | the first index whose line holds the id, and -1 exactly when no line holds it |
| Cart.AddToCart | client/src/components/ProductListingWithCart.jsx:54-65 | an absent id appends `{...product, quantity: 1}` after the unchanged earlier lines; a present id bumps only its first line by one, and the length and every other line stay the same |
| Cart.AddToCartUnits | client/src/components/ProductListingWithCart.jsx:58-62 | adding always raises the total number of units by exactly one |
| Cart.AddToCartKeepsValid | client/src/components/ProductListingWithCart.jsx:57-62 | adding keeps ids unique and every quantity at least 1 |
| Cart.AddToCartMapped | client/src/components/ProductListing.jsx:59-69 | an absent id appends the product with quantity 1; a present id bumps every line with that id by one, and the length and the other lines stay the same |
| Cart.AddToCartMappedSharedId | client/src/components/ProductListing.jsx:59-69 | when the product and every line share one id, the mapping add appends nothing and bumps every line by one |
| Cart.AddToCartVariantsAgree | client/src/components/ProductListing.jsx:61-67 | on carts with unique ids, the mapping add and the find-index add give the same cart |
| Cart.AddToCartMappedKeepsValid | client/src/components/ProductListing.jsx:63-67 | the mapping add keeps ids unique and quantities at least 1 |
| Cart.AddToCartVariantsDifferOnDuplicates | client/src/components/ProductListing.jsx:62-65 | with a duplicated id, the find-index add bumps one line while the mapping add bumps both |
| Cart.KeepPositive | client/src/components/ProductListingWithCart.jsx:73 | the filter leaves only lines with positive quantity, never grows the cart, and changes nothing when every quantity is positive |
| Cart.KeepPositiveInOrder | client/src/components/ProductListingWithCart.jsx:73 | the filtered cart is an order-preserving sub-sequence of the cart |
| Cart.KeepPositiveCounts | client/src/components/ProductListingWithCart.jsx:73 | every line with a positive quantity is kept as many times as the cart holds it, and no other line is kept |
| Cart.DecrementMatching | client/src/components/ProductListingWithCart.jsx:70-72 | the mapping keeps the cart's length |
| Cart.DecrementMatchingLines | client/src/components/ProductListingWithCart.jsx:70-72 | exactly the lines holding the id lose one unit, at their own positions; every other line is unchanged |
| Cart.RemoveFromCart | client/src/test2.js:61-69 | removing never grows the cart, and every line left has a positive quantity, whatever the input |
| Cart.RemovePresent | client/src/components/ProductListingWithCart.jsx:67-75 | in a valid cart, removing the product at position i decrements that line, or drops it when it held one unit; every other line keeps its quantity and relative order |
| Cart.RemoveAbsent | client/src/components/ProductListingWithCart.jsx:70-73 | removing an id that a valid cart does not hold returns the cart unchanged |
| Cart.RemoveKeepsValid | client/src/components/ProductListingWithCart.jsx:68-74 | removing keeps a valid cart valid |
| Cart.RemoveUnits | client/src/components/ProductListingWithCart.jsx:71-73 | removing lowers the units of a valid cart by one if the id is present, and by none otherwise |
| Cart.AddThenRemove | client/src/test2.js:48-69 | adding a product and then removing it restores any valid cart exactly |
| Text.StartsWithChars | client/src/pages/Checkout.jsx:67 | `startsWith` holds exactly when the prefix fits and agrees with the string character by character, and the string is then the prefix followed by the rest |
| Text.LowerChars | client/src/components/ProductListingWithCart.jsx:83 | `toLowerCase` keeps the length, leaves no capital letter, moves each capital to its small letter and keeps every other character |
| Text.Includes | client/src/components/ProductListingWithCart.jsx:83 | `includes` can only hold for a term no longer than the name, and always holds for the empty term |
| Text.IncludesMeansOccurs | client/src/components/ProductListingWithCart.jsx:83 | `includes` answers true exactly when the term occurs at some position of the name |
| Catalog.Search | client/src/components/ProductListingWithCart.jsx:81-86 | the result is an order-preserving sub-sequence of the catalog; every member matches the term; every matching catalog product is in it |
| Catalog.SearchCounts | client/src/components/ProductListing.jsx:71-76 | each matching product appears in the result as many times as in the fetched list, and no other product appears |
| Catalog.SearchResultsContainTerm | client/src/components/ProductListing.jsx:71-76 | a result over the fetched products is one of them, and its lower-cased name contains the lower-cased term |
| Catalog.SearchIgnoresTermCase | client/src/components/ProductListing.jsx:73 | two terms equal after lower-casing give the same result |
| Catalog.SearchEmptyTerm | client/src/components/ProductListingWithCart.jsx:82-83 | the empty term returns the whole catalog |
| Catalog.SearchOil | client/src/test2.js:9-14 | over the built-in catalog, "OIL" returns all four products in order |
| Catalog.SearchSeed | client/src/test2.js:75-80 | over the built-in catalog, "seed" returns the last three products (ids 2, 3 and 4) in order, and not the mustard oil |
| Pricing.Subtotal | client/src/pages/Checkout.jsx:30-32 | the sum of price × quantity, 0 for the empty cart, and non-negative when every price and quantity is |
| Pricing.CalculateSubtotal | client/src/pages/Checkout.jsx:31 | the left-to-right `reduce` loop from 0 computes the sum of price × quantity |
| Pricing.Discount | client/src/pages/Checkout.jsx:34-36 | above 1000 the discount is one tenth of the subtotal, at or below 1000 it is 0; so it is positive exactly when the subtotal is strictly above 1000, and lies between 0 and a non-negative subtotal |
| Pricing.DiscountBoundary | client/src/pages/Checkout.jsx:35 | a subtotal of exactly 1000 gets no discount, and 1001 gets 100.1 |
| Pricing.Gst | client/src/pages/Checkout.jsx:38-40 | twenty times the GST gives back the amount it was charged on, so the GST is 5% |
| Pricing.PricesFor | client/src/pages/Checkout.jsx:48-52 | the discount is the subtotal's discount, the amount after discount is the subtotal less it, the GST is 5% of that amount and the total is that amount plus GST; in closed form the total is 1.05 × subtotal at or below the threshold and 0.945 × subtotal above it |
| Pricing.Breakdown | client/src/pages/Checkout.jsx:48-52 | the breakdown of a cart is built from that cart's subtotal, and for non-negative prices and quantities its discount lies between 0 and the subtotal and its GST and total are non-negative |
| Pricing.BreakdownBounds | client/src/pages/Checkout.jsx:49-52 | for non-negative carts, the discount, GST and total are non-negative and the discount never exceeds the subtotal |
| Pricing.TotalAgainstSubtotal | client/src/pages/Checkout.jsx:50-52 | above the threshold the total is below the subtotal; at or below it the total is at least the subtotal |
| Pricing.TotalDropsAtThreshold | client/src/pages/Checkout.jsx:34-36 | 1000 rupees of goods cost 1050 in all but 1001 cost 945.945, so the total falls as the subtotal crosses the threshold |
| Pricing.RoundHalfUp | client/src/pages/Checkout.jsx:77 | `Math.round` gives the unique integer n with n − ½ ≤ x < n + ½, so halves round up |
| Pricing.ToPaise | client/src/pages/Checkout.jsx:77 | the paise amount is within half a paisa of 100 × total (halves up), and non-negative for a non-negative total |
| Pricing.PaiseClosedForm | client/src/pages/Checkout.jsx:48-77 | the amount sent is exactly 105·s paise at or below the threshold, and 94.5·s rounded up (`(189·s+1)/2`) above it |
| Pricing.SubtotalAfterAddNew | client/src/components/ProductListingWithCart.jsx:61 | adding a product the cart lacks raises the subtotal by its price |
| Pricing.SubtotalAfterAddExisting | client/src/components/ProductListingWithCart.jsx:59 | adding a product the cart holds raises the subtotal by the price on its line |
| Pricing.ExampleBelowThreshold | client/src/pages/Checkout.jsx:48-52 | 2 × 220 + 300 gives subtotal 740, discount 0, GST 37, total 777 and 77700 paise |
| Pricing.ExampleAboveThreshold | client/src/pages/Checkout.jsx:48-51 | 5 × 220 gives subtotal 1100, discount 110, GST 49.5, total 1039.5 and 103950 paise |
| CheckoutFlow.RenderCheckout | client/src/pages/Checkout.jsx:156-178 | the summary is shown exactly when the page is loaded and the cart is non-empty, with the cart's own lines and the cart's full price breakdown (subtotal, discount, amount after discount, GST and total) |
| CheckoutFlow.AuthorizationHeader | client/src/pages/Checkout.jsx:67 | the header always starts with "Bearer "; an already-prefixed token is kept, and any other token gets the prefix |
| CheckoutFlow.AuthorizationHeaderIdempotent | client/src/pages/Checkout.jsx:67 | normalising an already-normalised header changes nothing |
| CheckoutFlow.ErrorMessage | client/src/pages/Checkout.jsx:83 | a non-empty server message is shown as is; an absent or empty one gives exactly the fallback |
| CheckoutFlow.OptionsFor | client/src/pages/Checkout.jsx:89-95 | the payment window gets the fixed key and the order reply's amount, currency and id; a reply without an order leaves them undefined |
| CheckoutFlow.HandlePayment | client/src/pages/Checkout.jsx:42-154 | a failed script load or a missing token stops the flow before any request, with its message; the create-order request carries the normalised header and the total in paise; the cart is cleared and /order-success reached exactly when the verify reply is ok with `success` true, which is exactly when no error is left; a dismissal leaves "Payment cancelled by user"; a failed create-order shows the server's message or else "Failed to create order"; a verify reply that is not ok, or ok with `success` false, shows the server's message or else "Payment verification failed" |
| CheckoutFlow.ChargedAmountIsRenderedTotal | client/src/pages/Checkout.jsx:174-178 | the amount the flow charges is the total the page shows, in paise |
| Text.Split | server/index.js:68 | `split(' ')` always yields at least one piece, and no piece holds a space |
| Text.JoinSplit | server/index.js:68 | joining the pieces back with the separator gives the original header |
| Server.BearerToken | server/index.js:68-69 | a token taken from the header is non-empty and holds no space; which piece it is, is stated by the lemmas on the next rows |
| Server.BearerTokenAfterWord | server/index.js:68 | whatever the first word, "word token" yields the token, so the scheme is never checked |
| Server.BearerTokenIsSecondPiece | server/index.js:68-69 | in "word token rest" the token is the second space-separated piece, whatever follows it |
| Server.BearerTokenEmptySecondPiece | server/index.js:68-69 | two spaces after the first word leave an empty second piece, so there is no token and the request gets 401 |
| Server.BearerTokenTrailingSpace | server/index.js:68-69 | a header that is the first word and a single space (such as "Bearer ") has an empty second piece, so there is no token and the request gets 401 |
| Server.BearerTokenNeedsSpace | server/index.js:68-69 | a header without a space yields no token |
| Server.Authenticate | server/index.js:64-76 | a missing or empty header, or one with no token, gives 401 "Unauthorized"; a token that fails verification gives 403 "Invalid Token"; otherwise the request goes through exactly with the decoded claims |
| Server.OrderOptionsFor | server/index.js:120-124 | the order options forward the amount unchanged, with currency "INR", and a receipt "order_" followed by the clock reading in decimal: at least one digit, only digits after the prefix, no leading zero, and reading them back gives the clock reading |
| Text.Decimal | server/index.js:123 | a number prints as a non-empty string of decimal digits with no leading zero (a positive number never starts with '0') |
| Text.DecimalRoundTrip | server/index.js:123 | reading the printed digits back gives the number |
| Server.CreateOrder | server/index.js:118-131 | the gateway is asked once with the client's amount; its order is returned with 200, and a gateway failure gives 500 "Failed to create order" |
| Server.CreateOrderEndpoint | server/index.js:118 | a request rejected by authentication returns the rejection without calling the gateway |
| Server.VerifyPayment | server/index.js:133-163 | `success` is true, with status 200, exactly when the supplied signature equals the HMAC of the signed message under the key secret; with key and body present a mismatch gives exactly 400 "Payment verification failed" with `success:false`; a missing key secret or body throws and gives 500 "Internal server error" |
| Server.VerifyIgnoresAmount | server/index.js:135-139 | the posted `amount` has no effect on the verdict |
| Server.SignedMessageOfIds | server/index.js:142-144 | the signed message is exactly order id, a vertical bar, then payment id |
| Server.SignedMessage | server/index.js:143 | the signed message holds a vertical bar, starts with a present order id, and is one character longer than the two interpolated ids together |
| Server.SignedMessageInjective | server/index.js:143 | when order ids hold no vertical bar, equal signed messages mean equal order ids and equal payment ids |
| Server.VerifyPaymentEndpoint | server/index.js:133 | a rejected request gets the authentication reply, and an accepted one gets the handler's verdict |
| Server.FindCart | server/index.js:112 | `findOne` finds the first cart document of the user, or none when the user owns none |
| Server.CartsAroundDeletion | server/index.js:114 | deleting the user's first cart removes exactly that cart from the user's list and leaves every other user's carts as they were |
| Server.Checkout | server/index.js:111-116 | a user with no cart gets 400 "Cart is empty" and the store stays the same; otherwise the user's first cart is deleted, other users' carts stay untouched, and the order is reported placed |
| Server.CheckoutEndpoint | server/index.js:111 | a request rejected by authentication leaves every stored cart in place |
| EndToEnd.TokenRoundTrip | server/index.js:68-69 | for a non-empty, space-free stored token, the server takes back exactly that token from the header the page builds |
| EndToEnd.CartClearedIffPaymentAccepted | client/src/pages/Checkout.jsx:96-131 | against the real endpoints, the cart is cleared exactly when the token verifies, the order is created, the user pays, and the signature matches |
| EndToEnd.TamperedSignatureKeepsCart | server/index.js:146-156 | a signature that is not the HMAC never clears the cart, and the page shows "Payment verification failed" |
| EndToEnd.InvalidTokenStopsAtOrderCreation | server/index.js:71-72 | an unverifiable token gives "Invalid Token" on the page; the gateway is never asked for an order and the payment window never opens |
| EndToEnd.GatewayChargedRenderedTotal | server/index.js:120-126 | the gateway is asked, in INR, for exactly the total the page showed, in paise |

## Left out

- Browser storage is not modelled. This covers reading and writing the cart and the token in `localStorage`, and JSON parsing. The stored token is an input, and clearing the cart is a flag in the flow's result.
- The gateway script, the gateway SDK and the fetch calls are not modelled. Script loading (`Checkout.jsx:6-14`) is a boolean input, the payment window is a function from its options to "dismissed" or "paid", and each fetch is a function from request to reply.
- Network failures of `fetch` and malformed JSON replies are not modelled. So the flow's last fallback message, "Failed to process payment", is never produced in the model. Every error the flow throws itself carries a non-empty message.
- JWT signing and verification, HMAC-SHA256 and the gateway's `orders.create` are not modelled. These are foreign libraries, so each is a function parameter. Without their internals, nothing can be said about how the HMAC of two different messages compares. What is proved instead is that the signed message determines both ids.
- Timing of the signature comparison is not modelled. The code compares with ordinary string equality, which the model follows; timing is not observable in a pure model.
- JavaScript floating point is not modelled. Money is exact (integer rupees, rational derived amounts), so IEEE-754 drift is not reproduced.
- `toLowerCase` is modelled for ASCII capitals only. The model agrees with the page when names and terms use no capitals outside 'A'-'Z', which covers every search over the built-in catalog with such terms. Products fetched from the server can carry any text as a name, and a name or term with non-ASCII capitals (for example 'É', or the Kelvin sign that JavaScript lower-cases to 'k') can match differently in the page than in the model.
- Display-only product fields (images, description, stock) are not modelled. Neither are rendering, routing and navigation.
- The in-place mutation of the previous cart state (`ProductListingWithCart.jsx:59`, `test2.js:53`) is not modelled. Only the returned cart is.
- The other routes are not modelled: `/products`, `/register`, `/login` and `/cart`. Neither are the Mongoose schemas and connection, CORS, static files, or the password check of the registration form.
- Orders are not stored. The server keeps no record of created or verified orders, so there is no order state to model.
- Server.Checkout: the database's natural order is taken to be the order of the stored-document sequence. The decoded token is taken to always carry a `userId`, as the login route signs it.
- Server.VerifyPayment: the exceptions modelled are a missing key secret and a missing body. Other thrown errors inside the handler are not modelled.
- Cart.RemoveFromCart: its own contract holds for any cart, but it only states the bounds (no growth, positive quantities). The exact result is stated by Cart.RemovePresent and Cart.RemoveAbsent for valid carts. On an invalid cart the filter also drops unrelated lines with quantity ≤ 0.
- Cart.DecrementMatching: its own contract states only the length. The per-line effect is stated by Cart.DecrementMatchingLines, a separate lemma, because as a postcondition it makes every proof that mentions the removal much more expensive.
- Cart.KeepPositive: its own contract does not state order or multiplicity. Cart.KeepPositiveInOrder and Cart.KeepPositiveCounts state them, as separate lemmas for the same reason.
- Catalog.Search: its own contract states completeness by membership only. The count of each product, duplicates included, is stated by Catalog.SearchCounts.
- Text.Includes: its own contract states only necessary conditions. The exact meaning (an occurrence at some position) is stated by Text.IncludesMeansOccurs.
- Server.BearerToken: its own contract states only that a token is non-empty and space-free. The rule that it is the second space-separated piece is stated by Server.BearerTokenAfterWord, Server.BearerTokenIsSecondPiece, Server.BearerTokenEmptySecondPiece, Server.BearerTokenTrailingSpace and Server.BearerTokenNeedsSpace, which between them cover every header shape.
- Cart.AddToCartMapped: the model gives every product a numeric `id`. The products the plain listing page fetches from `/products` are database documents (`server/index.js:37-44`, `84-86`) whose schema has no `id` field, so they carry only `_id` and every `item.id === product.id` on that page compares two undefined values. There, once one fetched product is in the cart, adding any other fetched product bumps every line instead of appending (Cart.AddToCartMappedSharedId states this shape), and the unique-id premise of Cart.AddToCartVariantsAgree never holds. That component is not routed in `client/src/App.jsx:27-34`, which shows the listing page with the built-in catalog instead.
- Cart.AddThenRemove: stated for valid carts only (unique ids, quantities ≥ 1), the shape every cart built by the pages has.

=== FILE: cart.dfy ===
/**
 * The client-side shopping cart of the listing pages: adding a product,
 * removing one unit of a product, and the invariants these keep.
 *
 * Two implementations of "add" exist in the storefront. The listing page with
 * a cart (and its near-copy `test2.js`) finds the first line with the product's
 * id and bumps it; the plain listing page maps over the cart and bumps every
 * line with that id. Both are modelled, and shown to agree on carts whose ids
 * are unique.
 */
module Cart {
  import opened Sequences

  /** A catalog product; only the fields the cart and the prices read are kept. */
  datatype Product = Product(id: int, name: string, price: int)

  /** One cart entry: the product's fields spread into a new record, plus a quantity. */
  datatype CartLine = CartLine(id: int, name: string, price: int, quantity: int)

  /** `{ ...product, quantity: 1 }` */
  function NewLine(p: Product): CartLine {
    CartLine(p.id, p.name, p.price, 1)
  }

  function Incremented(line: CartLine): CartLine {
    line.(quantity := line.quantity + 1)
  }

  function Decremented(line: CartLine): CartLine {
    line.(quantity := line.quantity - 1)
  }

  predicate HasId(cart: seq<CartLine>, id: int) {
    exists i :: 0 <= i < |cart| && cart[i].id == id
  }

  predicate UniqueIds(cart: seq<CartLine>) {
    forall i, j :: 0 <= i < j < |cart| ==> cart[i].id != cart[j].id
  }

  /** The shape every cart built by these pages has: one line per product, none empty. */
  predicate Valid(cart: seq<CartLine>) {
    UniqueIds(cart) && forall i :: 0 <= i < |cart| ==> cart[i].quantity >= 1
  }

  /** Total number of units in the cart (the sum of the quantities). */
  function Units(cart: seq<CartLine>): int {
    if |cart| == 0 then 0 else cart[0].quantity + Units(cart[1..])
  }

  /** `cart.findIndex(item => item.id === id)`: the first index holding `id`, or -1. */
  function FindIndex(cart: seq<CartLine>, id: int): (i: int)
    ensures -1 <= i < |cart|
    ensures 0 <= i ==> cart[i].id == id && forall j :: 0 <= j < i ==> cart[j].id != id
    ensures i == -1 <==> !HasId(cart, id)
  {
    if |cart| == 0 then -1
    else if cart[0].id == id then 0
    else
      var k := FindIndex(cart[1..], id);
      if k == -1 then -1 else k + 1
  }

  /** `i` is the first position of `id` in the cart. */
  predicate IsFirstIndex(cart: seq<CartLine>, id: int, i: int) {
    0 <= i < |cart| && cart[i].id == id && forall j :: 0 <= j < i ==> cart[j].id != id
  }

  /**
   * The find-index `addToCart`: bump the first line holding the product's id,
   * or append a new line with quantity 1. The bumped line keeps its own name
   * and price; only the quantity changes.
   */
  function AddToCart(cart: seq<CartLine>, p: Product): (r: seq<CartLine>)
    ensures !HasId(cart, p.id) ==> r == cart + [NewLine(p)]
    ensures HasId(cart, p.id) ==> |r| == |cart|
    ensures forall i :: IsFirstIndex(cart, p.id, i) ==> r == cart[i := Incremented(cart[i])]
  {
    var i := FindIndex(cart, p.id);
    if i != -1 then cart[i := Incremented(cart[i])] else cart + [NewLine(p)]
  }

  /**
   * The mapping `addToCart`: if some line holds the product's id, every line
   * holding it is bumped; otherwise a new line with quantity 1 is appended.
   */
  function AddToCartMapped(cart: seq<CartLine>, p: Product): (r: seq<CartLine>)
    ensures !HasId(cart, p.id) ==> r == cart + [NewLine(p)]
    ensures HasId(cart, p.id) ==> |r| == |cart|
    ensures HasId(cart, p.id) ==> forall j :: 0 <= j < |cart| ==>
      r[j] == (if cart[j].id == p.id then Incremented(cart[j]) else cart[j])
  {
    if HasId(cart, p.id) then
      seq(|cart|, j requires 0 <= j < |cart| =>
        if cart[j].id == p.id then Incremented(cart[j]) else cart[j])
    else cart + [NewLine(p)]
  }

  /** `.map(item => item.id === id ? { ...item, quantity: item.quantity - 1 } : item)` */
  function DecrementMatching(cart: seq<CartLine>, id: int): (r: seq<CartLine>)
    ensures |r| == |cart|
  {
    if |cart| == 0 then []
    else [if cart[0].id == id then Decremented(cart[0]) else cart[0]] + DecrementMatching(cart[1..], id)
  }

  /** Exactly the lines holding `id` lose one unit; every other line is left as it was. */
  lemma {:induction false} DecrementMatchingLines(cart: seq<CartLine>, id: int)
    ensures forall k :: 0 <= k < |cart| && cart[k].id == id ==> DecrementMatching(cart, id)[k] == Decremented(cart[k])
    ensures forall k :: 0 <= k < |cart| && cart[k].id != id ==> DecrementMatching(cart, id)[k] == cart[k]
    decreases |cart|
  {
    if |cart| > 0 {
      DecrementMatchingLines(cart[1..], id);
      var r := DecrementMatching(cart, id);
      forall k | 1 <= k < |cart| ensures r[k] == DecrementMatching(cart[1..], id)[k - 1] && cart[k] == cart[1..][k - 1] {
      }
    }
  }

  /** `.filter(item => item.quantity > 0)` */
  function KeepPositive(cart: seq<CartLine>): (r: seq<CartLine>)
    ensures |r| <= |cart|
    ensures forall k :: 0 <= k < |r| ==> r[k].quantity > 0
    ensures (forall k :: 0 <= k < |cart| ==> cart[k].quantity > 0) ==> r == cart
  {
    if |cart| == 0 then []
    else if cart[0].quantity > 0 then [cart[0]] + KeepPositive(cart[1..])
    else KeepPositive(cart[1..])
  }

  /** The filter keeps the cart's order: its result is a sub-sequence of the cart. */
  lemma {:induction false} KeepPositiveInOrder(cart: seq<CartLine>)
    ensures IsSubseq(KeepPositive(cart), cart)
    decreases |cart|
  {
    if |cart| > 0 {
      KeepPositiveInOrder(cart[1..]);
      var r := KeepPositive(cart);
      if cart[0].quantity > 0 {
        assert r[0] == cart[0] && r[1..] == KeepPositive(cart[1..]);
      }
    }
  }

  /**
   * The filter keeps every line with a positive quantity, as many times as it
   * occurs, and nothing else.
   */
  lemma {:induction false} KeepPositiveCounts(cart: seq<CartLine>)
    ensures forall x :: multiset(KeepPositive(cart))[x] == (if x.quantity > 0 then multiset(cart)[x] else 0)
    decreases |cart|
  {
    if |cart| > 0 {
      var tail := cart[1..];
      KeepPositiveCounts(tail);
      assert cart == [cart[0]] + tail;
      assert multiset(cart) == multiset([cart[0]]) + multiset(tail);
      if cart[0].quantity > 0 {
        assert multiset(KeepPositive(cart)) == multiset([cart[0]]) + multiset(KeepPositive(tail));
      }
    }
  }

  /**
   * `removeFromCart`: take one unit off every line holding `id`, then drop
   * every line whose quantity is no longer positive.
   */
  function RemoveFromCart(cart: seq<CartLine>, id: int): (r: seq<CartLine>)
    ensures |r| <= |cart|
    ensures forall k :: 0 <= k < |r| ==> r[k].quantity > 0
  {
    KeepPositive(DecrementMatching(cart, id))
  }

  // ---------------------------------------------------------------------------
  // Units

  lemma {:induction false} UnitsAppend(cart: seq<CartLine>, line: CartLine)
    ensures Units(cart + [line]) == Units(cart) + line.quantity
  {
    if |cart| > 0 {
      assert (cart + [line])[1..] == cart[1..] + [line];
      UnitsAppend(cart[1..], line);
    }
  }

  lemma {:induction false} UnitsUpdate(cart: seq<CartLine>, i: int, line: CartLine)
    requires 0 <= i < |cart|
    ensures Units(cart[i := line]) == Units(cart) - cart[i].quantity + line.quantity
  {
    if i > 0 {
      assert cart[i := line][1..] == cart[1..][i - 1 := line];
      UnitsUpdate(cart[1..], i - 1, line);
    }
  }

  lemma {:induction false} UnitsDelete(cart: seq<CartLine>, i: int)
    requires 0 <= i < |cart|
    ensures Units(cart[..i] + cart[i + 1..]) == Units(cart) - cart[i].quantity
  {
    if i == 0 {
      assert cart[..0] + cart[1..] == cart[1..];
    } else {
      var tail := cart[1..];
      assert cart[..i] + cart[i + 1..] == [cart[0]] + (tail[..i - 1] + tail[i..]);
      UnitsDelete(tail, i - 1);
    }
  }

  // ---------------------------------------------------------------------------
  // Adding

  /** Adding a product always puts exactly one more unit in the cart. */
  lemma AddToCartUnits(cart: seq<CartLine>, p: Product)
    ensures Units(AddToCart(cart, p)) == Units(cart) + 1
  {
    var i := FindIndex(cart, p.id);
    if i == -1 {
      UnitsAppend(cart, NewLine(p));
    } else {
      UnitsUpdate(cart, i, Incremented(cart[i]));
    }
  }

  /** The find-index add keeps ids unique and every quantity at least 1. */
  lemma AddToCartKeepsValid(cart: seq<CartLine>, p: Product)
    requires Valid(cart)
    ensures Valid(AddToCart(cart, p))
  {
    var r := AddToCart(cart, p);
    if HasId(cart, p.id) {
      var i := FindIndex(cart, p.id);
      assert IsFirstIndex(cart, p.id, i);
      assert forall k :: 0 <= k < |r| ==> r[k].id == cart[k].id;
    } else {
      assert forall k :: 0 <= k < |cart| ==> r[k] == cart[k];
    }
  }

  /** On carts with unique ids the two `addToCart` implementations give the same cart. */
  lemma AddToCartVariantsAgree(cart: seq<CartLine>, p: Product)
    requires UniqueIds(cart)
    ensures AddToCartMapped(cart, p) == AddToCart(cart, p)
  {
    if HasId(cart, p.id) {
      var i := FindIndex(cart, p.id);
      assert IsFirstIndex(cart, p.id, i);
      var a := AddToCartMapped(cart, p);
      var b := AddToCart(cart, p);
      forall j | 0 <= j < |cart| ensures a[j] == b[j] {
        if j != i {
          assert cart[j].id != p.id;
        }
      }
    }
  }

  /**
   * When the product and every line carry one shared id (as when ids are all
   * missing), the mapping add appends nothing and bumps every line.
   */
  lemma AddToCartMappedSharedId(cart: seq<CartLine>, p: Product)
    requires |cart| > 0
    requires forall j :: 0 <= j < |cart| ==> cart[j].id == p.id
    ensures |AddToCartMapped(cart, p)| == |cart|
    ensures forall j :: 0 <= j < |cart| ==> AddToCartMapped(cart, p)[j] == Incremented(cart[j])
  {
    assert cart[0].id == p.id;
  }

  /** The mapping add keeps ids unique and every quantity at least 1. */
  lemma AddToCartMappedKeepsValid(cart: seq<CartLine>, p: Product)
    requires Valid(cart)
    ensures Valid(AddToCartMapped(cart, p))
  {
    AddToCartVariantsAgree(cart, p);
    AddToCartKeepsValid(cart, p);
  }

  /**
   * With a duplicated id the two adds part ways: the find-index add bumps
   * only the first line, the mapping add bumps both.
   */
  lemma AddToCartVariantsDifferOnDuplicates()
    ensures var cart := [CartLine(1, "Oil", 220, 1), CartLine(1, "Oil", 220, 1)];
            var p := Product(1, "Oil", 220);
            AddToCart(cart, p) == [CartLine(1, "Oil", 220, 2), CartLine(1, "Oil", 220, 1)] &&
            AddToCartMapped(cart, p) == [CartLine(1, "Oil", 220, 2), CartLine(1, "Oil", 220, 2)]
  {
    var cart := [CartLine(1, "Oil", 220, 1), CartLine(1, "Oil", 220, 1)];
    var p := Product(1, "Oil", 220);
    assert HasId(cart, p.id);
    assert IsFirstIndex(cart, p.id, 0);
  }

  // ---------------------------------------------------------------------------
  // Removing

  lemma {:induction false} DecrementAbsent(cart: seq<CartLine>, id: int)
    requires !HasId(cart, id)
    ensures DecrementMatching(cart, id) == cart
  {
    if |cart| > 0 {
      assert !HasId(cart[1..], id) by {
        forall k | 0 <= k < |cart[1..]| ensures cart[1..][k].id != id {
          assert cart[1..][k] == cart[k + 1];
        }
      }
      DecrementAbsent(cart[1..], id);
      assert cart == [cart[0]] + cart[1..];
    }
  }

  /** Removing a product that is not in a valid cart leaves the cart as it was. */
  lemma RemoveAbsent(cart: seq<CartLine>, id: int)
    requires Valid(cart)
    requires !HasId(cart, id)
    ensures RemoveFromCart(cart, id) == cart
  {
    DecrementAbsent(cart, id);
  }

  /** Updating past the head of a sequence updates its tail. */
  lemma UpdateAfterHead<T>(s: seq<T>, i: int, v: T)
    requires 0 < i < |s|
    ensures s[i := v] == [s[0]] + s[1..][i - 1 := v]
  {
  }

  /** Removing from a non-empty cart works on the first line, then on the rest. */
  lemma RemoveFromCartUnfold(cart: seq<CartLine>, id: int)
    requires |cart| > 0
    ensures RemoveFromCart(cart, id) ==
      (if cart[0].id != id && cart[0].quantity > 0 then [cart[0]]
       else if cart[0].id == id && cart[0].quantity > 1 then [Decremented(cart[0])]
       else []) + RemoveFromCart(cart[1..], id)
  {
    var d := DecrementMatching(cart, id);
    assert d == [if cart[0].id == id then Decremented(cart[0]) else cart[0]] + DecrementMatching(cart[1..], id);
    assert d[1..] == DecrementMatching(cart[1..], id);
  }

  /** Deleting past the head of a sequence deletes from its tail. */
  lemma DeleteAfterHead<T>(s: seq<T>, i: int)
    requires 0 < i < |s|
    ensures s[..i] + s[i + 1..] == [s[0]] + (s[1..][..i - 1] + s[1..][i..])
  {
  }

  /** The tail of a valid cart is valid and no longer holds the head's product. */
  lemma ValidTail(cart: seq<CartLine>)
    requires Valid(cart) && |cart| > 0
    ensures Valid(cart[1..])
    ensures !HasId(cart[1..], cart[0].id)
  {
    var tail := cart[1..];
    forall a, b | 0 <= a < b < |tail| ensures tail[a].id != tail[b].id {
      assert tail[a] == cart[a + 1] && tail[b] == cart[b + 1];
    }
    forall k | 0 <= k < |tail| ensures tail[k].id != cart[0].id && tail[k].quantity >= 1 {
      assert tail[k] == cart[k + 1];
    }
  }

  /** Removing the product on the first line of a valid cart touches only that line. */
  lemma RemoveAtHead(cart: seq<CartLine>, id: int)
    requires Valid(cart) && |cart| > 0 && cart[0].id == id
    ensures RemoveFromCart(cart, id) ==
      (if cart[0].quantity > 1 then [Decremented(cart[0])] else []) + cart[1..]
  {
    ValidTail(cart);
    RemoveAbsent(cart[1..], id);
    RemoveFromCartUnfold(cart, id);
  }

  /**
   * Removing a product held at position `i` of a valid cart takes one unit
   * off that line, and drops the line when it held a single unit; every other
   * line keeps its place and quantity.
   */
  lemma {:induction false} RemovePresent(cart: seq<CartLine>, id: int, i: int)
    requires Valid(cart)
    requires 0 <= i < |cart| && cart[i].id == id
    ensures RemoveFromCart(cart, id) ==
      if cart[i].quantity > 1 then cart[i := Decremented(cart[i])]
      else cart[..i] + cart[i + 1..]
  {
    if i == 0 {
      RemoveAtHead(cart, id);
      if cart[0].quantity > 1 {
        assert cart[0 := Decremented(cart[0])] == [Decremented(cart[0])] + cart[1..];
      } else {
        assert cart[..0] + cart[1..] == cart[1..];
      }
    } else {
      ValidTail(cart);
      assert cart[0].id != id;
      assert cart[0].quantity > 0;
      RemovePresent(cart[1..], id, i - 1);
      RemoveFromCartUnfold(cart, id);
      if cart[i].quantity > 1 {
        UpdateAfterHead(cart, i, Decremented(cart[i]));
      } else {
        DeleteAfterHead(cart, i);
      }
    }
  }

  /** Dropping a line keeps a valid cart valid. */
  lemma DeleteKeepsValid(cart: seq<CartLine>, i: int)
    requires Valid(cart) && 0 <= i < |cart|
    ensures Valid(cart[..i] + cart[i + 1..])
  {
    var r := cart[..i] + cart[i + 1..];
    forall k | 0 <= k < |r| ensures r[k] == cart[if k < i then k else k + 1] {
    }
  }

  /** Taking one unit off a line holding more than one keeps a valid cart valid. */
  lemma DecrementKeepsValid(cart: seq<CartLine>, i: int)
    requires Valid(cart) && 0 <= i < |cart| && cart[i].quantity > 1
    ensures Valid(cart[i := Decremented(cart[i])])
  {
  }

  /** Removing keeps a valid cart valid. */
  lemma RemoveKeepsValid(cart: seq<CartLine>, id: int)
    requires Valid(cart)
    ensures Valid(RemoveFromCart(cart, id))
  {
    var i := FindIndex(cart, id);
    if i == -1 {
      RemoveAbsent(cart, id);
    } else {
      RemovePresent(cart, id, i);
      if cart[i].quantity > 1 {
        DecrementKeepsValid(cart, i);
      } else {
        DeleteKeepsValid(cart, i);
      }
    }
  }

  /** Removing takes one unit out of a valid cart that holds the product, and none otherwise. */
  lemma RemoveUnits(cart: seq<CartLine>, id: int)
    requires Valid(cart)
    ensures Units(RemoveFromCart(cart, id)) == Units(cart) - (if HasId(cart, id) then 1 else 0)
  {
    var i := FindIndex(cart, id);
    if i == -1 {
      RemoveAbsent(cart, id);
    } else {
      RemovePresent(cart, id, i);
      if cart[i].quantity > 1 {
        UnitsUpdate(cart, i, Decremented(cart[i]));
      } else {
        UnitsDelete(cart, i);
      }
    }
  }

  /** Adding a product and then removing it restores any valid cart exactly. */
  lemma AddThenRemove(cart: seq<CartLine>, p: Product)
    requires Valid(cart)
    ensures RemoveFromCart(AddToCart(cart, p), p.id) == cart
  {
    var added := AddToCart(cart, p);
    AddToCartKeepsValid(cart, p);
    var i := FindIndex(cart, p.id);
    if i == -1 {
      RemovePresent(added, p.id, |cart|);
      assert added[..|cart|] + added[|cart| + 1..] == cart;
    } else {
      assert IsFirstIndex(cart, p.id, i);
      RemovePresent(added, p.id, i);
      assert added[i := Decremented(added[i])] == cart;
    }
  }
}

=== FILE: catalog.dfy ===
/**
 * The product search of the listing pages: a case-insensitive substring
 * match of the search term against each product name, over either the
 * built-in four-product catalog or the products fetched from the server.
 */
module Catalog {
  import opened Cart
  import opened Text
  import opened Sequences

  /** The built-in catalog of the listing page with a cart (and of `test2.js`). */
  const InitialProducts: seq<Product> := [
    Product(1, "Murli Mustard Oil", 220),
    Product(2, "Murli Flaxseed Oil", 300),
    Product(3, "Murli Sesame Seed Oil", 250),
    Product(4, "Murli Castor Seed Oil", 300)
  ]

  /** `product.name.toLowerCase().includes(searchTerm.toLowerCase())` */
  predicate Matches(p: Product, term: string) {
    Includes(Lower(p.name), Lower(term))
  }

  /**
   * `products.filter(...)`: the products whose name matches the term, in
   * catalog order.
   */
  function Search(products: seq<Product>, term: string): (r: seq<Product>)
    ensures IsSubseq(r, products)
    ensures forall k :: 0 <= k < |r| ==> Matches(r[k], term)
    ensures forall k :: 0 <= k < |products| && Matches(products[k], term) ==> products[k] in r
    decreases |products|
  {
    if |products| == 0 then []
    else if Matches(products[0], term) then [products[0]] + Search(products[1..], term)
    else Search(products[1..], term)
  }

  /**
   * The search keeps every matching product as many times as the list holds
   * it, and nothing else; repeated products are not merged.
   */
  lemma {:induction false} SearchCounts(products: seq<Product>, term: string)
    ensures forall x :: multiset(Search(products, term))[x] == (if Matches(x, term) then multiset(products)[x] else 0)
    decreases |products|
  {
    if |products| > 0 {
      var tail := products[1..];
      SearchCounts(tail, term);
      assert products == [products[0]] + tail;
      assert multiset(products) == multiset([products[0]]) + multiset(tail);
      if Matches(products[0], term) {
        assert multiset(Search(products, term)) == multiset([products[0]]) + multiset(Search(tail, term));
      }
    }
  }

  /** Matching reads the term through lower-casing, so its letter case is irrelevant. */
  lemma SearchIgnoresTermCase(products: seq<Product>, term: string, other: string)
    requires Lower(term) == Lower(other)
    ensures Search(products, term) == Search(products, other)
  {
  }

  /** A result member is a catalog product whose lower-cased name contains the lower-cased term. */
  lemma SearchResultsContainTerm(products: seq<Product>, term: string, p: Product)
    requires p in Search(products, term)
    ensures p in products
    ensures exists i :: OccursAt(Lower(p.name), Lower(term), i)
  {
    SubseqMembers(Search(products, term), products);
    IncludesMeansOccurs(Lower(p.name), Lower(term));
  }

  /** When every product matches, the search keeps the whole list. */
  lemma {:induction false} SearchAllMatch(products: seq<Product>, term: string)
    requires forall k :: 0 <= k < |products| ==> Matches(products[k], term)
    ensures Search(products, term) == products
    decreases |products|
  {
    if |products| > 0 {
      SearchAllMatch(products[1..], term);
      assert products == [products[0]] + products[1..];
    }
  }

  /** The empty search term shows the whole catalog. */
  lemma SearchEmptyTerm(products: seq<Product>)
    ensures Search(products, "") == products
  {
    forall k | 0 <= k < |products| ensures Matches(products[k], "") {
      IncludesEmpty(Lower(products[k].name));
    }
    SearchAllMatch(products, "");
  }

  /** The mustard oil's name holds no letter 'e', so "seed" cannot match it. */
  lemma MustardIsNoSeed()
    ensures !Matches(InitialProducts[0], "seed")
  {
    var name := Lower(InitialProducts[0].name);
    assert Lower("seed") == "seed";
    forall k | 0 <= k < |name| ensures name[k] != 'e' {
      assert InitialProducts[0].name[k] != 'e' && InitialProducts[0].name[k] != 'E';
    }
    IncludedCharsOccur(name, "seed", 1);
  }

  /** A product matches a term found at position `i` of its lower-cased name. */
  lemma MatchAt(p: Product, term: string, i: int)
    requires OccursAt(Lower(p.name), Lower(term), i)
    ensures Matches(p, term)
  {
    OccurrenceIsIncluded(Lower(p.name), Lower(term), i);
  }

  /** A name ending in "Oil" matches the search term "OIL". */
  lemma OilNameMatches(p: Product)
    requires |p.name| >= 3 && p.name[|p.name| - 3..] == "Oil"
    ensures Matches(p, "OIL")
  {
    var n := |p.name|;
    var name := Lower(p.name);
    assert p.name[n - 3] == 'O' && p.name[n - 2] == 'i' && p.name[n - 1] == 'l';
    assert name[n - 3..n] == "oil";
    assert Lower("OIL") == "oil";
    MatchAt(p, "OIL", n - 3);
  }

  /** Every built-in product is an oil, so "OIL" finds all four. */
  lemma SearchOil()
    ensures Search(InitialProducts, "OIL") == InitialProducts
  {
    forall k | 0 <= k < 4 ensures Matches(InitialProducts[k], "OIL") {
      var name := InitialProducts[k].name;
      assert name[|name| - 3..] == "Oil";
      OilNameMatches(InitialProducts[k]);
    }
    SearchAllMatch(InitialProducts, "OIL");
  }

  /** A name ending in "seed Oil" or "Seed Oil" matches the search term "seed". */
  lemma SeedNameMatches(p: Product)
    requires |p.name| >= 8
    requires p.name[|p.name| - 8] in "sS" && p.name[|p.name| - 7..|p.name| - 4] == "eed"
    ensures Matches(p, "seed")
  {
    var n := |p.name|;
    var name := Lower(p.name);
    assert p.name[n - 7] == 'e' && p.name[n - 6] == 'e' && p.name[n - 5] == 'd';
    assert name[n - 8..n - 4] == "seed";
    assert Lower("seed") == "seed";
    MatchAt(p, "seed", n - 8);
  }

  /** The three seed oils' names all hold "seed". */
  lemma SeedOilsAreSeeds()
    ensures forall k :: 1 <= k < 4 ==> Matches(InitialProducts[k], "seed")
  {
    forall k | 1 <= k < 4 ensures Matches(InitialProducts[k], "seed") {
      var name := InitialProducts[k].name;
      assert name[|name| - 8] in "sS" && name[|name| - 7..|name| - 4] == "eed";
      SeedNameMatches(InitialProducts[k]);
    }
  }

  /**
   * "seed" passes over the mustard oil and finds the flaxseed, sesame seed
   * and castor seed oils (ids 2, 3, 4), in catalog order.
   */
  lemma SearchSeed(products: seq<Product>)
    requires products == InitialProducts
    ensures Search(products, "seed") == products[1..]
    ensures |Search(products, "seed")| == 3
  {
    MustardIsNoSeed();
    var rest := products[1..];
    assert products == [products[0]] + rest;
    assert !Matches(products[0], "seed");
    forall k | 0 <= k < |rest| ensures Matches(rest[k], "seed") {
      SeedOilsAreSeeds();
      assert rest[k] == products[k + 1];
    }
    SearchAllMatch(rest, "seed");
  }
}

=== FILE: checkout.dfy ===
/**
 * The checkout page: the summary it renders and the payment flow its
 * "Pay Now" button runs.
 *
 * The flow is a pure function of the cart, of what the browser holds (was
 * the gateway script loaded, which token is stored) and of the three outside
 * parties it talks to: the order-creation endpoint, the gateway's payment
 * window, and the verification endpoint. Each party is a function parameter,
 * so every property below holds whatever they answer.
 */
module CheckoutFlow {
  import opened Wrappers
  import opened Text
  import opened Cart
  import opened Pricing
  import opened Wire

  const SdkLoadError: string := "Failed to load payment gateway. Please try again."
  const LoginRequired: string := "Please login to continue"
  const CreateOrderFailed: string := "Failed to create order"
  const VerificationFailed: string := "Payment verification failed"
  const PaymentCancelled: string := "Payment cancelled by user"
  const OrderSuccessPage: string := "/order-success"
  const GatewayKey: string := "rzp_test_F2SLDLGxSqdknW"
  const BearerPrefix: string := "Bearer "

  // ---------------------------------------------------------------------------
  // The rendered page

  datatype CheckoutPage =
    | Loading
    | EmptyCart
    | Summary(lines: seq<CartLine>, prices: PriceBreakdown)

  /** What the page shows: a loading notice, the empty-cart notice, or the lines and their price breakdown. */
  function RenderCheckout(loading: bool, cart: seq<CartLine>): (page: CheckoutPage)
    ensures page.Summary? <==> !loading && |cart| > 0
    ensures page.Summary? ==> page.lines == cart && page.prices.subtotal == Subtotal(cart)
    ensures page.Summary? ==> page.prices == Breakdown(cart)
  {
    if loading then Loading
    else if |cart| == 0 then EmptyCart
    else Summary(cart, Breakdown(cart))
  }

  // ---------------------------------------------------------------------------
  // The token

  /** A stored token counts only when present and non-empty (`if (!token)`). */
  predicate HasToken(stored: Option<string>) {
    stored.Some? && stored.value != ""
  }

  /** The Authorization header: the stored token, prefixed with "Bearer " unless it already is. */
  function AuthorizationHeader(token: string): (header: string)
    ensures StartsWith(header, BearerPrefix)
    ensures StartsWith(token, BearerPrefix) ==> header == token
    ensures !StartsWith(token, BearerPrefix) ==> header == BearerPrefix + token
  {
    if StartsWith(token, BearerPrefix) then token else BearerPrefix + token
  }

  /** Normalising a header again changes nothing. */
  lemma AuthorizationHeaderIdempotent(token: string)
    ensures AuthorizationHeader(AuthorizationHeader(token)) == AuthorizationHeader(token)
  {
  }

  // ---------------------------------------------------------------------------
  // The payment flow

  datatype CreateOrderRequest = CreateOrderRequest(authorization: string, amount: int)

  datatype VerifyRequest = VerifyRequest(authorization: string, fields: PaymentFields)

  /** The options the gateway's payment window is opened with; fields missing from the order reply are absent. */
  datatype SdkOptions = SdkOptions(key: string, amount: Option<int>, currency: Option<string>, orderId: Option<string>)

  /** What the gateway hands the success handler. */
  datatype PaymentResponse = PaymentResponse(orderId: string, paymentId: string, signature: string)

  /** How the payment window closes: dismissed by the user, or paid. */
  datatype GatewayOutcome = Dismissed | Paid(response: PaymentResponse)

  /** What the browser holds when the button is pressed. */
  datatype Environment = Environment(sdkLoaded: bool, storedToken: Option<string>)

  /** Everything the flow did: the requests it sent, the window it opened, and the state it left. */
  datatype CheckoutResult = CheckoutResult(
    createOrderRequest: Option<CreateOrderRequest>,
    sdkOpened: Option<SdkOptions>,
    verifyRequest: Option<VerifyRequest>,
    error: string,
    cartCleared: bool,
    redirect: Option<string>)

  /** `message || fallback`: an absent or empty message gives way to the fallback. */
  function ErrorMessage(message: Option<string>, fallback: string): (e: string)
    ensures fallback != "" ==> e != ""
    ensures message.Some? && message.value != "" ==> e == message.value
    ensures !(message.Some? && message.value != "") ==> e == fallback
  {
    if message.Some? && message.value != "" then message.value else fallback
  }

  /** The options built from the order reply (`orderData.amount`, `.currency`, `.id`). */
  function OptionsFor(body: Body): (o: SdkOptions)
    ensures o.key == GatewayKey
    ensures body.OrderBody? ==>
      o.amount == Some(body.order.amount) && o.currency == Some(body.order.currency) && o.orderId == Some(body.order.id)
    ensures !body.OrderBody? ==> o.amount.None? && o.currency.None? && o.orderId.None?
  {
    match body
    case OrderBody(order) => SdkOptions(GatewayKey, Some(order.amount), Some(order.currency), Some(order.id))
    case _ => SdkOptions(GatewayKey, None, None, None)
  }

  /** The flow stopped with an error before reaching the server. */
  function StoppedEarly(error: string): CheckoutResult {
    CheckoutResult(None, None, None, error, false, None)
  }

  /** The amount the flow asks the server to create an order for: the rendered total in paise. */
  function AmountToCharge(cart: seq<CartLine>): int {
    ToPaise(Breakdown(cart).total)
  }

  /**
   * `handlePayment` together with the payment window's `handler` and
   * `ondismiss` callbacks.
   */
  function HandlePayment(
    cart: seq<CartLine>,
    env: Environment,
    createOrder: CreateOrderRequest -> Reply,
    gateway: SdkOptions -> GatewayOutcome,
    verify: VerifyRequest -> Reply): (r: CheckoutResult)
    ensures !env.sdkLoaded ==> r == StoppedEarly(SdkLoadError)
    ensures env.sdkLoaded && !HasToken(env.storedToken) ==> r == StoppedEarly(LoginRequired)
    ensures r.createOrderRequest.Some? <==> env.sdkLoaded && HasToken(env.storedToken)
    ensures r.createOrderRequest.Some? ==>
      r.createOrderRequest.value == CreateOrderRequest(AuthorizationHeader(env.storedToken.value), AmountToCharge(cart))
    ensures r.sdkOpened.Some? <==> r.createOrderRequest.Some? && createOrder(r.createOrderRequest.value).Ok()
    ensures r.sdkOpened.Some? ==> r.sdkOpened.value == OptionsFor(createOrder(r.createOrderRequest.value).body)
    ensures r.verifyRequest.Some? <==> r.sdkOpened.Some? && gateway(r.sdkOpened.value).Paid?
    ensures r.verifyRequest.Some? ==>
      var paid := gateway(r.sdkOpened.value).response;
      r.verifyRequest.value == VerifyRequest(r.createOrderRequest.value.authorization,
        PaymentFields(Some(paid.orderId), Some(paid.paymentId), Some(paid.signature), r.sdkOpened.value.amount))
    ensures r.cartCleared <==>
      r.verifyRequest.Some? && verify(r.verifyRequest.value).Ok() && SuccessOf(verify(r.verifyRequest.value).body)
    ensures r.cartCleared <==> r.redirect == Some(OrderSuccessPage)
    ensures r.cartCleared <==> r.error == ""
    ensures r.sdkOpened.Some? && gateway(r.sdkOpened.value).Dismissed? ==> r.error == PaymentCancelled
    ensures r.createOrderRequest.Some? && !createOrder(r.createOrderRequest.value).Ok() ==>
      r.error == ErrorMessage(MessageOf(createOrder(r.createOrderRequest.value).body), CreateOrderFailed)
    ensures r.verifyRequest.Some? && !r.cartCleared ==>
      r.error == ErrorMessage(MessageOf(verify(r.verifyRequest.value).body), VerificationFailed)
  {
    if !env.sdkLoaded then StoppedEarly(SdkLoadError)
    else if !HasToken(env.storedToken) then StoppedEarly(LoginRequired)
    else
      var authorization := AuthorizationHeader(env.storedToken.value);
      var orderRequest := CreateOrderRequest(authorization, AmountToCharge(cart));
      var orderReply := createOrder(orderRequest);
      if !orderReply.Ok() then
        CheckoutResult(Some(orderRequest), None, None,
          ErrorMessage(MessageOf(orderReply.body), CreateOrderFailed), false, None)
      else
        var options := OptionsFor(orderReply.body);
        match gateway(options)
        case Dismissed =>
          CheckoutResult(Some(orderRequest), Some(options), None, PaymentCancelled, false, None)
        case Paid(paid) =>
          var fields := PaymentFields(Some(paid.orderId), Some(paid.paymentId), Some(paid.signature), options.amount);
          var verifyRequest := VerifyRequest(authorization, fields);
          var verifyReply := verify(verifyRequest);
          if !verifyReply.Ok() then
            CheckoutResult(Some(orderRequest), Some(options), Some(verifyRequest),
              ErrorMessage(MessageOf(verifyReply.body), VerificationFailed), false, None)
          else if SuccessOf(verifyReply.body) then
            CheckoutResult(Some(orderRequest), Some(options), Some(verifyRequest), "", true, Some(OrderSuccessPage))
          else
            CheckoutResult(Some(orderRequest), Some(options), Some(verifyRequest),
              ErrorMessage(MessageOf(verifyReply.body), VerificationFailed), false, None)
  }

  /**
   * The price the page shows is the price the flow charges: for a non-empty
   * cart, the create-order request carries the displayed total in paise.
   */
  lemma ChargedAmountIsRenderedTotal(
    cart: seq<CartLine>, env: Environment,
    createOrder: CreateOrderRequest -> Reply,
    gateway: SdkOptions -> GatewayOutcome,
    verify: VerifyRequest -> Reply)
    requires |cart| > 0
    requires env.sdkLoaded && HasToken(env.storedToken)
    ensures RenderCheckout(false, cart).Summary?
    ensures HandlePayment(cart, env, createOrder, gateway, verify).createOrderRequest.value.amount ==
      ToPaise(RenderCheckout(false, cart).prices.total)
  {
  }
}

=== FILE: end_to_end.dfy ===
/**
 * The checkout page's payment flow run against the server's own endpoints:
 * the create-order and verify-payment requests are answered by the server
 * model, behind its authentication. JWT verification, the key secret, HMAC,
 * the gateway and the clock stay parameters.
 */
module EndToEnd {
  import opened Wrappers
  import opened Text
  import opened Pricing
  import opened Wire
  import opened Server
  import opened CheckoutFlow
  import Cart

  /** The server answering the page's create-order request. */
  function ServerCreateOrder(jwt: string -> Option<Claims>, now: nat, create: OrderOptions -> Option<GatewayOrder>): CreateOrderRequest -> Reply {
    (req: CreateOrderRequest) => CreateOrderEndpoint(Some(req.authorization), jwt, Some(req.amount), now, create).reply
  }

  /** The server answering the page's verify-payment request. */
  function ServerVerify(jwt: string -> Option<Claims>, keySecret: Option<string>, hmac: (string, string) -> string): VerifyRequest -> Reply {
    (req: VerifyRequest) => VerifyPaymentEndpoint(Some(req.authorization), jwt, keySecret, hmac, Some(req.fields))
  }

  /** The header the page builds from a non-empty, space-free token hands the same token to the server. */
  lemma TokenRoundTrip(token: string)
    requires token != "" && ' ' !in token
    ensures BearerToken(AuthorizationHeader(token)) == Some(token)
  {
    PrefixCharsOccur(token, BearerPrefix, 6);
    assert BearerPrefix[6] == ' ';
    assert BearerPrefix + token == "Bearer" + " " + token;
    BearerTokenAfterWord("Bearer", token);
  }

  /**
   * Everything that has to go right for a payment: the token verifies, the
   * gateway creates the order, the user pays, and the signature the gateway
   * returns is the HMAC of "order id|payment id" under the key secret.
   */
  predicate PaymentAccepted(
    cart: seq<Cart.CartLine>, token: string, jwt: string -> Option<Claims>, now: nat,
    create: OrderOptions -> Option<GatewayOrder>, gateway: SdkOptions -> GatewayOutcome,
    key: string, hmac: (string, string) -> string)
  {
    && jwt(token).Some?
    && var options := OrderOptionsFor(Some(AmountToCharge(cart)), now);
    && create(options).Some?
    && var sdk := OptionsFor(OrderBody(create(options).value));
    && gateway(sdk).Paid?
    && var paid := gateway(sdk).response;
    && paid.signature == hmac(key, paid.orderId + "|" + paid.paymentId)
  }

  /**
   * With the gateway script loaded, a usable token stored and the key secret
   * configured, the cart is cleared exactly when the payment is accepted.
   */
  lemma CartClearedIffPaymentAccepted(
    cart: seq<Cart.CartLine>, token: string, jwt: string -> Option<Claims>, now: nat,
    create: OrderOptions -> Option<GatewayOrder>, gateway: SdkOptions -> GatewayOutcome,
    key: string, hmac: (string, string) -> string)
    requires token != "" && ' ' !in token
    ensures HandlePayment(cart, Environment(true, Some(token)), ServerCreateOrder(jwt, now, create), gateway,
              ServerVerify(jwt, Some(key), hmac)).cartCleared
            <==> PaymentAccepted(cart, token, jwt, now, create, gateway, key, hmac)
  {
    TokenRoundTrip(token);
    var header := AuthorizationHeader(token);
    var options := OrderOptionsFor(Some(AmountToCharge(cart)), now);
    if jwt(token).Some? && create(options).Some? {
      var sdk := OptionsFor(OrderBody(create(options).value));
      if gateway(sdk).Paid? {
        var paid := gateway(sdk).response;
        SignedMessageOfIds(paid.orderId, paid.paymentId);
      }
    }
  }

  /**
   * A tampered signature never clears the cart: the page shows the server's
   * "Payment verification failed" and the stored cart stays.
   */
  lemma TamperedSignatureKeepsCart(
    cart: seq<Cart.CartLine>, token: string, jwt: string -> Option<Claims>, now: nat,
    create: OrderOptions -> Option<GatewayOrder>, gateway: SdkOptions -> GatewayOutcome,
    key: string, hmac: (string, string) -> string, paid: PaymentResponse)
    requires token != "" && ' ' !in token && jwt(token).Some?
    requires create(OrderOptionsFor(Some(AmountToCharge(cart)), now)).Some?
    requires gateway(OptionsFor(OrderBody(create(OrderOptionsFor(Some(AmountToCharge(cart)), now)).value))) == Paid(paid)
    requires paid.signature != hmac(key, paid.orderId + "|" + paid.paymentId)
    ensures var r := HandlePayment(cart, Environment(true, Some(token)), ServerCreateOrder(jwt, now, create), gateway,
              ServerVerify(jwt, Some(key), hmac));
            !r.cartCleared && r.redirect == None && r.error == VerificationFailed
  {
    TokenRoundTrip(token);
    SignedMessageOfIds(paid.orderId, paid.paymentId);
  }

  /**
   * A token the server cannot verify stops the flow at order creation: the
   * page shows "Invalid Token", the gateway is never asked for an order and
   * the payment window never opens.
   */
  lemma InvalidTokenStopsAtOrderCreation(
    cart: seq<Cart.CartLine>, token: string, jwt: string -> Option<Claims>, now: nat,
    create: OrderOptions -> Option<GatewayOrder>, gateway: SdkOptions -> GatewayOutcome,
    keySecret: Option<string>, hmac: (string, string) -> string)
    requires token != "" && ' ' !in token && jwt(token).None?
    ensures var r := HandlePayment(cart, Environment(true, Some(token)), ServerCreateOrder(jwt, now, create), gateway,
              ServerVerify(jwt, keySecret, hmac));
            r.sdkOpened.None? && !r.cartCleared && r.error == "Invalid Token"
    ensures CreateOrderEndpoint(Some(AuthorizationHeader(token)), jwt, Some(AmountToCharge(cart)), now, create).sentToGateway.None?
  {
    TokenRoundTrip(token);
  }

  /** The gateway is asked for exactly the total the page showed, in paise. */
  lemma GatewayChargedRenderedTotal(
    cart: seq<Cart.CartLine>, token: string, jwt: string -> Option<Claims>, now: nat,
    create: OrderOptions -> Option<GatewayOrder>)
    requires |cart| > 0
    requires token != "" && ' ' !in token && jwt(token).Some?
    ensures var sent := CreateOrderEndpoint(Some(AuthorizationHeader(token)), jwt, Some(AmountToCharge(cart)), now, create).sentToGateway;
            sent.Some? && sent.value.amount == Some(ToPaise(RenderCheckout(false, cart).prices.total)) &&
            sent.value.currency == "INR"
  {
    TokenRoundTrip(token);
  }
}

=== FILE: pricing.dfy ===
/**
 * The checkout price breakdown: subtotal, a 10% discount on subtotals
 * strictly above 1000 rupees, 5% GST on the discounted amount, the total,
 * and the total converted to whole paise for the payment gateway.
 *
 * Prices are whole rupees, so the subtotal is an integer; the discount, GST
 * and total are exact rationals (`real`), not floating point.
 */
module Pricing {
  import opened Cart

  /** Subtotals strictly above this many rupees are discounted. */
  const DiscountThreshold: int := 1000
  const DiscountRate: real := 0.1
  const GstRate: real := 0.05

  function LineTotal(line: CartLine): int {
    line.price * line.quantity
  }

  /** Every line has a non-negative price and quantity (nothing in the storefront checks this). */
  predicate NonNegative(cart: seq<CartLine>) {
    forall k :: 0 <= k < |cart| ==> cart[k].price >= 0 && cart[k].quantity >= 0
  }

  /** The sum of price times quantity over the cart, added up from the left as `reduce` does. */
  function Subtotal(cart: seq<CartLine>): (s: int)
    ensures NonNegative(cart) ==> s >= 0
    decreases |cart|
  {
    if |cart| == 0 then 0 else Subtotal(cart[..|cart| - 1]) + LineTotal(cart[|cart| - 1])
  }

  /** `calculateSubtotal`: the `reduce` loop, starting from 0. */
  method CalculateSubtotal(cart: seq<CartLine>) returns (sum: int)
    ensures sum == Subtotal(cart)
  {
    sum := 0;
    var i := 0;
    while i < |cart|
      invariant 0 <= i <= |cart|
      invariant sum == Subtotal(cart[..i])
    {
      assert cart[..i + 1][..i] == cart[..i];
      sum := sum + cart[i].price * cart[i].quantity;
      i := i + 1;
    }
    assert cart[..i] == cart;
  }

  /** `calculateDiscount`: 10% of the subtotal when it is strictly above the threshold, else nothing. */
  function Discount(subtotal: int): (d: real)
    ensures subtotal > DiscountThreshold ==> d * 10.0 == subtotal as real
    ensures subtotal <= DiscountThreshold ==> d == 0.0
    ensures d > 0.0 <==> subtotal > DiscountThreshold
    ensures 0 <= subtotal ==> 0.0 <= d <= subtotal as real
  {
    if subtotal > DiscountThreshold then subtotal as real * DiscountRate else 0.0
  }

  /** `calculateGST`: 5% of the amount, so twenty times the GST gives the amount back. */
  function Gst(amount: real): (g: real)
    ensures g * 20.0 == amount
  {
    amount * GstRate
  }

  datatype PriceBreakdown = PriceBreakdown(
    subtotal: int,
    discount: real,
    afterDiscount: real,
    gst: real,
    total: real)

  /** The chain subtotal -> discount -> amount after discount -> GST -> total, for a given subtotal. */
  function PricesFor(subtotal: int): (b: PriceBreakdown)
    ensures b.subtotal == subtotal
    ensures b.discount == Discount(subtotal)
    ensures b.afterDiscount == subtotal as real - b.discount
    ensures b.gst * 20.0 == b.afterDiscount
    ensures b.total == b.afterDiscount + b.gst
    ensures b.total == (if subtotal > DiscountThreshold then subtotal as real * 0.945 else subtotal as real * 1.05)
  {
    var discount := Discount(subtotal);
    var afterDiscount := subtotal as real - discount;
    var gst := Gst(afterDiscount);
    PriceBreakdown(subtotal, discount, afterDiscount, gst, afterDiscount + gst)
  }

  /** The breakdown of a cart, as both the checkout page and the payment handler compute it. */
  function Breakdown(cart: seq<CartLine>): (b: PriceBreakdown)
    ensures b.subtotal == Subtotal(cart)
    ensures NonNegative(cart) ==> 0.0 <= b.discount <= b.subtotal as real && 0.0 <= b.gst && 0.0 <= b.total
  {
    PricesFor(Subtotal(cart))
  }

  /** `Math.round`: the nearest integer, halves rounded up. */
  function RoundHalfUp(x: real): (n: int)
    ensures n as real - 0.5 <= x < n as real + 0.5
  {
    (x + 0.5).Floor
  }

  /** Only one integer lies in the half-open window `[x - 1/2, x + 1/2)`. */
  lemma RoundHalfUpUnique(x: real, n: int)
    requires n as real - 0.5 <= x < n as real + 0.5
    ensures RoundHalfUp(x) == n
  {
  }

  /** `Math.round(totalAmount * 100)`: the total in whole paise. */
  function ToPaise(total: real): (paise: int)
    ensures paise as real - 0.5 <= total * 100.0 < paise as real + 0.5
    ensures total >= 0.0 ==> paise >= 0
  {
    RoundHalfUp(total * 100.0)
  }

  // ---------------------------------------------------------------------------
  // Properties of the breakdown

  /** The discount never exceeds the subtotal and the total is never negative for non-negative carts. */
  lemma BreakdownBounds(cart: seq<CartLine>)
    requires NonNegative(cart)
    ensures var b := Breakdown(cart);
      0.0 <= b.discount <= b.subtotal as real && 0.0 <= b.gst && 0.0 <= b.total
  {
  }

  /** Above the threshold the customer pays less than the subtotal; at or below it, at least the subtotal. */
  lemma TotalAgainstSubtotal(cart: seq<CartLine>)
    ensures var b := Breakdown(cart);
      (b.subtotal > DiscountThreshold ==> b.total < b.subtotal as real) &&
      (0 <= b.subtotal <= DiscountThreshold ==> b.total >= b.subtotal as real)
  {
  }

  /** The threshold is strict: 1000 earns no discount, 1001 earns 100.1. */
  lemma DiscountBoundary()
    ensures Discount(1000) == 0.0
    ensures Discount(1001) == 100.1
  {
  }

  /**
   * The discount makes the total fall as the subtotal crosses the threshold:
   * 1000 rupees of goods cost 1050 in all, 1001 rupees cost 945.945.
   */
  lemma TotalDropsAtThreshold()
    ensures PricesFor(1000).total == 1050.0
    ensures PricesFor(1001).total == 945.945
    ensures PricesFor(1001).total < PricesFor(1000).total
  {
  }

  /**
   * The amount sent to the gateway in closed form: 105 paise per rupee up to
   * the threshold, 94.5 paise per rupee above it, an odd half paisa rounded up.
   */
  lemma {:induction false} PaiseClosedForm(cart: seq<CartLine>)
    ensures var s := Subtotal(cart);
      ToPaise(Breakdown(cart).total) == if s > DiscountThreshold then (189 * s + 1) / 2 else 105 * s
  {
    var s := Subtotal(cart);
    var x := Breakdown(cart).total * 100.0;
    if s > DiscountThreshold {
      assert x == (189 * s) as real / 2.0;
      var n := (189 * s + 1) / 2;
      if s % 2 == 0 {
        assert 189 * s == 2 * n;
      } else {
        assert 189 * s + 1 == 2 * n;
      }
      RoundHalfUpUnique(x, n);
    } else {
      assert x == (105 * s) as real;
      RoundHalfUpUnique(x, 105 * s);
    }
  }

  // ---------------------------------------------------------------------------
  // How cart operations move the subtotal

  lemma {:induction false} SubtotalUpdate(cart: seq<CartLine>, i: int, line: CartLine)
    requires 0 <= i < |cart|
    ensures Subtotal(cart[i := line]) == Subtotal(cart) - LineTotal(cart[i]) + LineTotal(line)
    decreases |cart|
  {
    var n := |cart|;
    var updated := cart[i := line];
    if i < n - 1 {
      assert updated[..n - 1] == cart[..n - 1][i := line];
      SubtotalUpdate(cart[..n - 1], i, line);
    } else {
      assert updated[..n - 1] == cart[..n - 1];
    }
  }

  /** Adding a product the cart does not hold raises the subtotal by the product's price. */
  lemma SubtotalAfterAddNew(cart: seq<CartLine>, p: Product)
    requires !HasId(cart, p.id)
    ensures Subtotal(AddToCart(cart, p)) == Subtotal(cart) + p.price
  {
    var added := AddToCart(cart, p);
    assert added[..|cart|] == cart;
  }

  /** Adding a product the cart holds at `i` raises the subtotal by the price already on that line. */
  lemma SubtotalAfterAddExisting(cart: seq<CartLine>, p: Product, i: int)
    requires IsFirstIndex(cart, p.id, i)
    ensures Subtotal(AddToCart(cart, p)) == Subtotal(cart) + cart[i].price
  {
    var line := cart[i];
    assert AddToCart(cart, p) == cart[i := Incremented(line)];
    SubtotalUpdate(cart, i, Incremented(line));
    LineTotalIncremented(line);
  }

  /** One more unit on a line adds its price to the line's total. */
  lemma LineTotalIncremented(line: CartLine)
    ensures LineTotal(Incremented(line)) == LineTotal(line) + line.price
  {
    MultiplyOneMore(line.price, line.quantity);
  }

  lemma MultiplyOneMore(a: int, b: int)
    ensures a * (b + 1) == a * b + a
  {
  }

  // ---------------------------------------------------------------------------
  // Worked examples

  /** Two mustard oils and one flaxseed oil: 740, no discount, GST 37, total 777, 77700 paise. */
  lemma ExampleBelowThreshold()
    ensures var b := Breakdown([CartLine(1, "Murli Mustard Oil", 220, 2), CartLine(2, "Murli Flaxseed Oil", 300, 1)]);
      b == PriceBreakdown(740, 0.0, 740.0, 37.0, 777.0) && ToPaise(b.total) == 77700
  {
    var cart := [CartLine(1, "Murli Mustard Oil", 220, 2), CartLine(2, "Murli Flaxseed Oil", 300, 1)];
    assert cart[..1] == [cart[0]];
    assert Subtotal(cart) == 740;
    PaiseClosedForm(cart);
  }

  /** Five mustard oils: 1100, discount 110, GST 49.5, total 1039.5, 103950 paise. */
  lemma ExampleAboveThreshold()
    ensures var b := Breakdown([CartLine(1, "Murli Mustard Oil", 220, 5)]);
      b == PriceBreakdown(1100, 110.0, 990.0, 49.5, 1039.5) && ToPaise(b.total) == 103950
  {
    var cart := [CartLine(1, "Murli Mustard Oil", 220, 5)];
    assert Subtotal(cart) == 1100;
    PaiseClosedForm(cart);
  }
}

=== FILE: sequences.dfy ===
/** Order-preserving sub-sequences, the shape of every `Array.prototype.filter` result. */
module Sequences {

  /** `a` can be obtained from `b` by deleting elements, keeping the rest in order. */
  predicate IsSubseq<T(==)>(a: seq<T>, b: seq<T>)
    decreases |b|
  {
    if |a| == 0 then true
    else if |b| == 0 then false
    else if a[0] == b[0] && IsSubseq(a[1..], b[1..]) then true
    else IsSubseq(a, b[1..])
  }

  /** Every element of a sub-sequence comes from the larger sequence. */
  lemma {:induction false} SubseqMembers<T>(a: seq<T>, b: seq<T>)
    requires IsSubseq(a, b)
    ensures forall x :: x in a ==> x in b
    decreases |b|
  {
    if |a| == 0 {
    } else if a[0] == b[0] && IsSubseq(a[1..], b[1..]) {
      SubseqMembers(a[1..], b[1..]);
      forall x | x in a ensures x in b {
        if x != a[0] {
          assert x in a[1..];
        }
      }
    } else {
      SubseqMembers(a, b[1..]);
    }
  }
}

=== FILE: server.dfy ===
/**
 * The request decisions of the Express server: bearer-token authentication,
 * the order-creation options, the payment-signature check, and the
 * cart-exists decision of /checkout.
 *
 * JWT verification, HMAC-SHA256, the gateway's order creation and the clock
 * are outside the model: each is a parameter, and the decisions hold for
 * every choice of them.
 */
module Server {
  import opened Wrappers
  import opened Text
  import opened Wire

  type UserId = string

  /** The payload of a verified token. */
  datatype Claims = Claims(userId: UserId)

  datatype AuthResult = Authenticated(user: Claims) | Rejected(reply: Reply)

  function Unauthorized(): Reply {
    Reply(401, MessageBody("Unauthorized"))
  }

  function InvalidToken(): Reply {
    Reply(403, MessageBody("Invalid Token"))
  }

  /** `header.split(' ')[1]`, treated as missing when absent or empty. */
  function BearerToken(header: string): (token: Option<string>)
    ensures token.Some? ==> token.value != "" && ' ' !in token.value
  {
    var parts := Split(header, ' ');
    if |parts| >= 2 && parts[1] != "" then Some(parts[1]) else None
  }

  /**
   * The `authenticate` middleware: 401 without a header or without a second
   * space-separated piece, 403 when the token does not verify, otherwise the
   * decoded claims. The scheme word before the space is never looked at.
   */
  function Authenticate(header: Option<string>, verify: string -> Option<Claims>): (r: AuthResult)
    ensures header.None? || header == Some("") ==> r == Rejected(Unauthorized())
    ensures header.Some? && BearerToken(header.value).None? ==> r == Rejected(Unauthorized())
    ensures r.Authenticated? <==>
      header.Some? && BearerToken(header.value).Some? && verify(BearerToken(header.value).value).Some?
    ensures r.Authenticated? ==> r.user == verify(BearerToken(header.value).value).value
    ensures r.Rejected? && header.Some? && BearerToken(header.value).Some? ==> r.reply == InvalidToken()
  {
    if header.None? || header.value == "" then Rejected(Unauthorized())
    else match BearerToken(header.value)
      case None => Rejected(Unauthorized())
      case Some(token) =>
        match verify(token)
        case None => Rejected(InvalidToken())
        case Some(claims) => Authenticated(claims)
  }

  /** Whatever the first word, a header "<word> <token>" yields the token. */
  lemma BearerTokenAfterWord(word: string, token: string)
    requires ' ' !in word && ' ' !in token && token != ""
    ensures BearerToken(word + " " + token) == Some(token)
  {
    SplitWithoutSeparator(token, ' ');
    SplitAfterWord(word, ' ', token);
  }

  /** The token is the second piece exactly: whatever follows a further space is ignored. */
  lemma BearerTokenIsSecondPiece(word: string, token: string, rest: string)
    requires ' ' !in word && ' ' !in token && token != ""
    ensures BearerToken(word + " " + token + " " + rest) == Some(token)
  {
    assert word + " " + token + " " + rest == word + [' '] + (token + [' '] + rest);
    SplitAfterWord(word, ' ', token + [' '] + rest);
    SplitAfterWord(token, ' ', rest);
  }

  /** Two spaces after the first word leave an empty second piece, which is no token. */
  lemma BearerTokenEmptySecondPiece(word: string, rest: string)
    requires ' ' !in word
    ensures BearerToken(word + "  " + rest) == None
  {
    assert word + "  " + rest == word + [' '] + ([] + [' '] + rest);
    SplitAfterWord(word, ' ', [] + [' '] + rest);
    SplitAfterWord([], ' ', rest);
  }

  /** A single space right after the first word leaves an empty second piece, which is no token. */
  lemma BearerTokenTrailingSpace(word: string)
    requires ' ' !in word
    ensures BearerToken(word + " ") == None
  {
    assert word + " " == word + [' '] + [];
    SplitAfterWord(word, ' ', []);
  }

  /** A header without a space holds no token. */
  lemma BearerTokenNeedsSpace(header: string)
    requires ' ' !in header
    ensures BearerToken(header) == None
  {
    SplitWithoutSeparator(header, ' ');
  }

  // ---------------------------------------------------------------------------
  // POST /create-order

  /** The options passed to the gateway's order creation. */
  datatype OrderOptions = OrderOptions(amount: Option<int>, currency: string, receipt: string)

  /** `{ amount: req.body.amount, currency: 'INR', receipt: 'order_' + Date.now() }` */
  function OrderOptionsFor(amount: Option<int>, now: nat): (o: OrderOptions)
    ensures o.amount == amount && o.currency == "INR"
    ensures StartsWith(o.receipt, "order_") && DecimalValue(o.receipt[6..]) == now
    ensures |o.receipt| >= 7
    ensures forall k :: 6 <= k < |o.receipt| ==> '0' <= o.receipt[k] <= '9'
    ensures |o.receipt| > 7 ==> o.receipt[6] != '0'
  {
    var receipt := "order_" + Decimal(now);
    assert receipt[6..] == Decimal(now);
    DecimalRoundTrip(now);
    OrderOptions(amount, "INR", receipt)
  }

  /** A reply together with the options sent to the gateway, if it was called. */
  datatype CreateOrderOutcome = CreateOrderOutcome(reply: Reply, sentToGateway: Option<OrderOptions>)

  /**
   * The /create-order handler: one gateway call with the client's amount
   * forwarded unchanged; the created order on success, 500 on any failure.
   */
  function CreateOrder(amount: Option<int>, now: nat, create: OrderOptions -> Option<GatewayOrder>): (r: CreateOrderOutcome)
    ensures r.sentToGateway.Some? && r.sentToGateway.value.amount == amount
    ensures r.reply.Ok() <==> create(r.sentToGateway.value).Some?
    ensures r.reply.Ok() ==> r.reply == Reply(200, OrderBody(create(r.sentToGateway.value).value))
    ensures !r.reply.Ok() ==> r.reply == Reply(500, MessageBody("Failed to create order"))
  {
    var options := OrderOptionsFor(amount, now);
    match create(options)
    case Some(order) => CreateOrderOutcome(Reply(200, OrderBody(order)), Some(options))
    case None => CreateOrderOutcome(Reply(500, MessageBody("Failed to create order")), Some(options))
  }

  /** POST /create-order behind `authenticate`: the gateway is not called for a rejected request. */
  function CreateOrderEndpoint(
    header: Option<string>, verify: string -> Option<Claims>,
    amount: Option<int>, now: nat, create: OrderOptions -> Option<GatewayOrder>): (r: CreateOrderOutcome)
    ensures Authenticate(header, verify).Rejected? ==>
      r == CreateOrderOutcome(Authenticate(header, verify).reply, None)
    ensures Authenticate(header, verify).Authenticated? ==> r.sentToGateway.Some?
  {
    match Authenticate(header, verify)
    case Rejected(reply) => CreateOrderOutcome(reply, None)
    case Authenticated(_) => CreateOrder(amount, now, create)
  }

  // ---------------------------------------------------------------------------
  // POST /verify-payment

  /** A template-literal hole: an absent field prints as "undefined". */
  function Interpolate(v: Option<string>): string {
    match v
    case Some(s) => s
    case None => "undefined"
  }

  /** `${razorpay_order_id}|${razorpay_payment_id}` */
  function SignedMessage(orderId: Option<string>, paymentId: Option<string>): (m: string)
    ensures '|' in m
    ensures orderId.Some? ==> StartsWith(m, orderId.value)
    ensures |m| == |Interpolate(orderId)| + 1 + |Interpolate(paymentId)|
  {
    Interpolate(orderId) + "|" + Interpolate(paymentId)
  }

  function InternalError(): Reply {
    Reply(500, VerificationBody(false, "Internal server error"))
  }

  /**
   * The /verify-payment handler. The HMAC of the signed message under the
   * key secret is compared with the supplied signature; a missing key
   * secret or body throws inside the handler and is reported as a generic
   * 500.
   */
  function VerifyPayment(keySecret: Option<string>, hmac: (string, string) -> string, body: Option<PaymentFields>): (r: Reply)
    ensures r.body.VerificationBody?
    ensures keySecret.None? || body.None? ==> r == InternalError()
    ensures SuccessOf(r.body) <==> r.status == 200
    ensures r.status == 200 <==>
      keySecret.Some? && body.Some? &&
      body.value.signature == Some(hmac(keySecret.value, SignedMessage(body.value.orderId, body.value.paymentId)))
    ensures r.status == 200 || r.status == 400 || r == InternalError()
    ensures keySecret.Some? && body.Some? && r.status != 200 ==>
      r == Reply(400, VerificationBody(false, "Payment verification failed"))
    ensures r.status == 200 ==> r == Reply(200, VerificationBody(true, "Payment verified successfully"))
  {
    if keySecret.None? || body.None? then InternalError()
    else
      var generated := hmac(keySecret.value, SignedMessage(body.value.orderId, body.value.paymentId));
      if body.value.signature == Some(generated) then
        Reply(200, VerificationBody(true, "Payment verified successfully"))
      else
        Reply(400, VerificationBody(false, "Payment verification failed"))
  }

  /** The `amount` field of the posted body plays no part in the decision. */
  lemma VerifyIgnoresAmount(keySecret: Option<string>, hmac: (string, string) -> string, fields: PaymentFields, amount: Option<int>)
    ensures VerifyPayment(keySecret, hmac, Some(fields.(amount := amount))) == VerifyPayment(keySecret, hmac, Some(fields))
  {
  }

  /** The signed message of two present ids is exactly `orderId + "|" + paymentId`. */
  lemma SignedMessageOfIds(orderId: string, paymentId: string)
    ensures SignedMessage(Some(orderId), Some(paymentId)) == orderId + "|" + paymentId
  {
  }

  /** The position of the first `c` in `s`, or `|s|` when there is none. */
  function IndexOfChar(s: string, c: char): int
  {
    if |s| == 0 || s[0] == c then 0 else 1 + IndexOfChar(s[1..], c)
  }

  /** In `o + "|" + p` with no '|' in `o`, the first '|' is the one right after `o`. */
  lemma {:induction false} FirstBar(o: string, p: string)
    requires '|' !in o
    ensures IndexOfChar(o + "|" + p, '|') == |o|
    decreases |o|
  {
    if |o| > 0 {
      var m := o + "|" + p;
      assert m[0] == o[0];
      assert m[1..] == o[1..] + "|" + p;
      assert '|' !in o[1..] by {
        forall k | 0 <= k < |o[1..]| ensures o[1..][k] != '|' {
          assert o[1..][k] == o[k + 1];
        }
      }
      FirstBar(o[1..], p);
    }
  }

  /**
   * When order ids contain no '|', the signed message determines both ids,
   * so a signature over one (order, payment) pair is never a signature over another.
   */
  lemma SignedMessageInjective(o1: string, p1: string, o2: string, p2: string)
    requires '|' !in o1 && '|' !in o2
    requires o1 + "|" + p1 == o2 + "|" + p2
    ensures o1 == o2 && p1 == p2
  {
    var m := o1 + "|" + p1;
    FirstBar(o1, p1);
    FirstBar(o2, p2);
    assert |o1| == |o2|;
    assert o1 == m[..|o1|] == o2;
    assert p1 == m[|o1| + 1..] == p2;
  }

  /** POST /verify-payment behind `authenticate`. */
  function VerifyPaymentEndpoint(
    header: Option<string>, verify: string -> Option<Claims>,
    keySecret: Option<string>, hmac: (string, string) -> string, body: Option<PaymentFields>): (r: Reply)
    ensures Authenticate(header, verify).Rejected? ==> r == Authenticate(header, verify).reply
    ensures Authenticate(header, verify).Authenticated? ==> r == VerifyPayment(keySecret, hmac, body)
  {
    match Authenticate(header, verify)
    case Rejected(reply) => reply
    case Authenticated(_) => VerifyPayment(keySecret, hmac, body)
  }

  // ---------------------------------------------------------------------------
  // POST /checkout

  datatype CartItem = CartItem(productId: string, quantity: int)

  /** A stored cart document. Saving a cart inserts a new document, so a user may own several. */
  datatype CartDoc = CartDoc(userId: UserId, items: seq<CartItem>)

  /** The documents owned by `user`, in store order. */
  function CartsOf(store: seq<CartDoc>, user: UserId): (r: seq<CartDoc>)
    ensures |r| <= |store|
  {
    if |store| == 0 then []
    else (if store[0].userId == user then [store[0]] else []) + CartsOf(store[1..], user)
  }

  /** `Cart.findOne({ userId })`: the position of the first document of `user`, or -1. */
  function FindCart(store: seq<CartDoc>, user: UserId): (i: int)
    ensures -1 <= i < |store|
    ensures 0 <= i ==> store[i].userId == user && forall j :: 0 <= j < i ==> store[j].userId != user
    ensures i == -1 ==> forall j :: 0 <= j < |store| ==> store[j].userId != user
  {
    if |store| == 0 then -1
    else if store[0].userId == user then 0
    else
      var k := FindCart(store[1..], user);
      if k == -1 then -1 else k + 1
  }

  datatype CheckoutOutcome = CheckoutOutcome(reply: Reply, store: seq<CartDoc>)

  /**
   * The /checkout handler: 400 "Cart is empty" when the user owns no cart;
   * otherwise the first cart of the user is deleted and the order reported placed.
   */
  function Checkout(store: seq<CartDoc>, user: UserId): (r: CheckoutOutcome)
    ensures CartsOf(store, user) == [] ==> r == CheckoutOutcome(Reply(400, MessageBody("Cart is empty")), store)
    ensures CartsOf(store, user) != [] ==> r.reply == Reply(200, MessageBody("Order placed successfully"))
    ensures CartsOf(store, user) != [] ==> CartsOf(r.store, user) == CartsOf(store, user)[1..]
    ensures CartsOf(store, user) != [] ==> |r.store| == |store| - 1
    ensures forall other :: other != user ==> CartsOf(r.store, other) == CartsOf(store, other)
  {
    var i := FindCart(store, user);
    if i == -1 then
      NoCartsOf(store, user);
      CheckoutOutcome(Reply(400, MessageBody("Cart is empty")), store)
    else
      var rest := store[..i] + store[i + 1..];
      CartsAroundDeletion(store, i);
      CheckoutOutcome(Reply(200, MessageBody("Order placed successfully")), rest)
  }

  lemma {:induction false} NoCartsOf(store: seq<CartDoc>, user: UserId)
    requires forall j :: 0 <= j < |store| ==> store[j].userId != user
    ensures CartsOf(store, user) == []
  {
    if |store| > 0 {
      NoCartsOf(store[1..], user);
    }
  }

  lemma {:induction false} CartsOfConcat(a: seq<CartDoc>, b: seq<CartDoc>, user: UserId)
    ensures CartsOf(a + b, user) == CartsOf(a, user) + CartsOf(b, user)
  {
    if |a| > 0 {
      assert (a + b)[1..] == a[1..] + b;
      CartsOfConcat(a[1..], b, user);
    } else {
      assert a + b == b;
    }
  }

  /** How one document's deletion splits every user's cart list. */
  lemma CartsAroundIndex(store: seq<CartDoc>, i: int, v: UserId)
    requires 0 <= i < |store|
    ensures CartsOf(store, v) == CartsOf(store[..i], v) + CartsOf([store[i]], v) + CartsOf(store[i + 1..], v)
    ensures CartsOf(store[..i] + store[i + 1..], v) == CartsOf(store[..i], v) + CartsOf(store[i + 1..], v)
  {
    assert store == store[..i] + ([store[i]] + store[i + 1..]);
    CartsOfConcat(store[..i], [store[i]] + store[i + 1..], v);
    CartsOfConcat([store[i]], store[i + 1..], v);
    CartsOfConcat(store[..i], store[i + 1..], v);
  }

  /** Deleting the first cart of its owner removes exactly that cart from the owner's list. */
  lemma OwnerCartsAfterDeletion(store: seq<CartDoc>, i: int)
    requires 0 <= i < |store|
    requires forall j :: 0 <= j < i ==> store[j].userId != store[i].userId
    ensures CartsOf(store, store[i].userId) != []
    ensures CartsOf(store[..i] + store[i + 1..], store[i].userId) == CartsOf(store, store[i].userId)[1..]
  {
    var user := store[i].userId;
    NoCartsOf(store[..i], user);
    CartsAroundIndex(store, i, user);
    assert CartsOf([store[i]], user) == [store[i]];
  }

  /** Deleting one user's cart leaves every other user's carts as they were. */
  lemma OtherCartsAfterDeletion(store: seq<CartDoc>, i: int, other: UserId)
    requires 0 <= i < |store|
    requires other != store[i].userId
    ensures CartsOf(store[..i] + store[i + 1..], other) == CartsOf(store, other)
  {
    CartsAroundIndex(store, i, other);
    assert CartsOf([store[i]], other) == [];
  }

  lemma CartsAroundDeletion(store: seq<CartDoc>, i: int)
    requires 0 <= i < |store|
    requires forall j :: 0 <= j < i ==> store[j].userId != store[i].userId
    ensures CartsOf(store, store[i].userId) != []
    ensures CartsOf(store[..i] + store[i + 1..], store[i].userId) == CartsOf(store, store[i].userId)[1..]
    ensures forall other :: other != store[i].userId ==>
      CartsOf(store[..i] + store[i + 1..], other) == CartsOf(store, other)
  {
    OwnerCartsAfterDeletion(store, i);
    forall other | other != store[i].userId
      ensures CartsOf(store[..i] + store[i + 1..], other) == CartsOf(store, other)
    {
      OtherCartsAfterDeletion(store, i, other);
    }
  }

  /** POST /checkout behind `authenticate`: a rejected request leaves every cart in place. */
  function CheckoutEndpoint(header: Option<string>, verify: string -> Option<Claims>, store: seq<CartDoc>): (r: CheckoutOutcome)
    ensures Authenticate(header, verify).Rejected? ==>
      r == CheckoutOutcome(Authenticate(header, verify).reply, store)
    ensures Authenticate(header, verify).Authenticated? ==>
      r == Checkout(store, Authenticate(header, verify).user.userId)
  {
    match Authenticate(header, verify)
    case Rejected(reply) => CheckoutOutcome(reply, store)
    case Authenticated(claims) => Checkout(store, claims.userId)
  }
}

=== FILE: text.dfy ===
/** The few JavaScript string operations the storefront relies on, over `seq<char>`. */
module Text {

  /** `s.startsWith(prefix)`. */
  predicate StartsWith(s: string, prefix: string)
  {
    |prefix| <= |s| && s[..|prefix|] == prefix
  }

  /**
   * `startsWith` compares the leading characters one by one, and a string
   * that starts with a prefix is that prefix followed by the rest.
   */
  lemma StartsWithChars(s: string, prefix: string)
    ensures StartsWith(s, prefix) <==> |prefix| <= |s| && forall k :: 0 <= k < |prefix| ==> s[k] == prefix[k]
    ensures StartsWith(s, prefix) ==> s == prefix + s[|prefix|..]
  {
    if |prefix| <= |s| && forall k :: 0 <= k < |prefix| ==> s[k] == prefix[k] {
      assert s[..|prefix|] == prefix;
    }
  }

  /** Every character of a prefix appears in the string. */
  lemma PrefixCharsOccur(s: string, prefix: string, k: int)
    requires 0 <= k < |prefix|
    ensures StartsWith(s, prefix) ==> prefix[k] in s
  {
    if StartsWith(s, prefix) {
      assert s[..|prefix|][k] == s[k];
    }
  }

  /** `t` sits in `s` starting at position `i`. */
  predicate OccursAt(s: string, t: string, i: int) {
    0 <= i && i + |t| <= |s| && s[i..i + |t|] == t
  }

  /** `s.includes(t)`: tries each starting position from the left. */
  function Includes(s: string, t: string): (b: bool)
    ensures b ==> |t| <= |s|
    ensures |t| == 0 ==> b
    decreases |s|
  {
    if StartsWith(s, t) then true
    else if |s| == 0 then false
    else Includes(s[1..], t)
  }

  /** A found occurrence makes `includes` answer true. */
  lemma {:induction false} OccurrenceIsIncluded(s: string, t: string, i: int)
    requires OccursAt(s, t, i)
    ensures Includes(s, t)
    decreases i
  {
    if i == 0 {
      assert StartsWith(s, t);
    } else if !StartsWith(s, t) {
      assert s[1..][i - 1..i - 1 + |t|] == s[i..i + |t|];
      OccurrenceIsIncluded(s[1..], t, i - 1);
    }
  }

  /** When `includes` answers true, an occurrence exists. */
  lemma {:induction false} IncludedHasOccurrence(s: string, t: string)
    requires Includes(s, t)
    ensures exists i :: OccursAt(s, t, i)
    decreases |s|
  {
    if StartsWith(s, t) {
      assert OccursAt(s, t, 0);
    } else {
      IncludedHasOccurrence(s[1..], t);
      var i :| OccursAt(s[1..], t, i);
      assert s[1..][i..i + |t|] == s[i + 1..i + 1 + |t|];
      assert OccursAt(s, t, i + 1);
    }
  }

  /** Every character of an included string appears in the containing string. */
  lemma IncludedCharsOccur(s: string, t: string, k: int)
    requires 0 <= k < |t|
    ensures Includes(s, t) ==> t[k] in s
  {
    if Includes(s, t) {
      IncludedHasOccurrence(s, t);
      var i :| OccursAt(s, t, i);
      assert s[i..i + |t|][k] == s[i + k];
    }
  }

  /** `includes` answers true exactly when `t` occurs somewhere in `s`. */
  lemma IncludesMeansOccurs(s: string, t: string)
    ensures Includes(s, t) <==> exists i :: OccursAt(s, t, i)
  {
    if Includes(s, t) {
      IncludedHasOccurrence(s, t);
    }
    forall i | OccursAt(s, t, i) ensures Includes(s, t) {
      OccurrenceIsIncluded(s, t, i);
    }
  }

  /** The empty string is included in every string. */
  lemma IncludesEmpty(s: string)
    ensures Includes(s, "")
  {
    assert StartsWith(s, "");
  }

  /** ASCII lower-casing of one character (`toLowerCase` on the Latin capitals). */
  function LowerChar(c: char): char {
    if 'A' <= c <= 'Z' then (c as int + 32) as char else c
  }

  /** `s.toLowerCase()`, character by character. */
  function Lower(s: string): string {
    seq(|s|, i requires 0 <= i < |s| => LowerChar(s[i]))
  }

  /**
   * Lower-casing keeps the length, leaves no capital letter behind, keeps
   * every other character, and moves each capital to its small letter.
   */
  lemma LowerChars(s: string)
    ensures |Lower(s)| == |s|
    ensures forall k :: 0 <= k < |s| ==> !('A' <= Lower(s)[k] <= 'Z')
    ensures forall k :: 0 <= k < |s| && !('A' <= s[k] <= 'Z') ==> Lower(s)[k] == s[k]
    ensures forall k :: 0 <= k < |s| && 'A' <= s[k] <= 'Z' ==> Lower(s)[k] as int == s[k] as int + 32
  {
  }

  /** `s.split(sep)` for a one-character separator: the pieces between separators, empty pieces kept. */
  function Split(s: string, sep: char): (parts: seq<string>)
    ensures |parts| >= 1
    ensures forall k :: 0 <= k < |parts| ==> sep !in parts[k]
    decreases |s|
  {
    if |s| == 0 then [""]
    else
      var rest := Split(s[1..], sep);
      if s[0] == sep then [""] + rest
      else [[s[0]] + rest[0]] + rest[1..]
  }

  /** `parts.join(sep)`. */
  function Join(parts: seq<string>, sep: char): string
    requires |parts| >= 1
  {
    if |parts| == 1 then parts[0] else parts[0] + [sep] + Join(parts[1..], sep)
  }

  /** Splitting loses nothing: joining the pieces back gives the original string. */
  lemma {:induction false} JoinSplit(s: string, sep: char)
    ensures Join(Split(s, sep), sep) == s
    decreases |s|
  {
    if |s| > 0 {
      var rest := Split(s[1..], sep);
      JoinSplit(s[1..], sep);
      assert s == [s[0]] + s[1..];
      if s[0] == sep {
        var parts := [""] + rest;
        assert parts[1..] == rest;
        calc {
          Join(parts, sep);
          "" + [sep] + Join(rest, sep);
          [sep] + s[1..];
        }
      } else if |rest| == 1 {
        assert Join(rest, sep) == rest[0];
      } else {
        var parts := [[s[0]] + rest[0]] + rest[1..];
        assert parts[1..] == rest[1..];
        calc {
          Join(parts, sep);
          [s[0]] + rest[0] + [sep] + Join(rest[1..], sep);
          [s[0]] + (rest[0] + [sep] + Join(rest[1..], sep));
          [s[0]] + Join(rest, sep);
        }
      }
    }
  }

  /** A string without the separator is a single piece. */
  lemma {:induction false} SplitWithoutSeparator(s: string, sep: char)
    requires sep !in s
    ensures Split(s, sep) == [s]
    decreases |s|
  {
    if |s| > 0 {
      assert sep !in s[1..] by {
        forall k | 0 <= k < |s[1..]| ensures s[1..][k] != sep {
          assert s[1..][k] == s[k + 1];
        }
      }
      SplitWithoutSeparator(s[1..], sep);
      assert s == [s[0]] + s[1..];
    }
  }

  /** A separator-free word followed by the separator becomes its own first piece. */
  lemma {:induction false} SplitAfterWord(w: string, sep: char, rest: string)
    requires sep !in w
    ensures Split(w + [sep] + rest, sep) == [w] + Split(rest, sep)
    decreases |w|
  {
    var s := w + [sep] + rest;
    if |w| == 0 {
      assert s[1..] == rest;
    } else {
      assert s[1..] == w[1..] + [sep] + rest;
      assert sep !in w[1..] by {
        forall k | 0 <= k < |w[1..]| ensures w[1..][k] != sep {
          assert w[1..][k] == w[k + 1];
        }
      }
      SplitAfterWord(w[1..], sep, rest);
      assert w == [w[0]] + w[1..];
    }
  }

  /** The decimal digits of `n`, as `String(n)` writes a non-negative integer. */
  function Decimal(n: nat): (r: string)
    ensures |r| >= 1
    ensures forall k :: 0 <= k < |r| ==> '0' <= r[k] <= '9'
    ensures n > 0 ==> r[0] != '0'
    ensures |r| > 1 ==> r[0] != '0'
  {
    if n < 10 then [Digit(n)] else Decimal(n / 10) + [Digit(n % 10)]
  }

  function Digit(d: nat): (c: char)
    requires d < 10
  {
    (48 + d) as char
  }

  /** The value a string of decimal digits denotes. */
  function DecimalValue(s: string): int
    decreases |s|
  {
    if |s| == 0 then 0 else 10 * DecimalValue(s[..|s| - 1]) + (s[|s| - 1] as int - 48)
  }

  /** Reading the digits back gives the number written. */
  lemma {:induction false} DecimalRoundTrip(n: nat)
    ensures DecimalValue(Decimal(n)) == n
  {
    var r := Decimal(n);
    if n >= 10 {
      DecimalRoundTrip(n / 10);
      assert r[..|r| - 1] == Decimal(n / 10);
    }
  }
}

=== FILE: wire.dfy ===
/**
 * The JSON that crosses between the checkout page and the server: reply
 * bodies, status codes, and the payment fields posted for verification.
 */
module Wire {
  import opened Wrappers

  /** A gateway order as the order-creation call returns it (the fields the page reads). */
  datatype GatewayOrder = GatewayOrder(id: string, amount: int, currency: string)

  /** The reply bodies the server sends. */
  datatype Body =
    | MessageBody(message: string)
    | OrderBody(order: GatewayOrder)
    | VerificationBody(success: bool, message: string)

  datatype Reply = Reply(status: int, body: Body) {
    /** `response.ok`: a 2xx status. */
    predicate Ok() {
      200 <= status <= 299
    }
  }

  /** `data.message`; an order body has no such field. */
  function MessageOf(body: Body): Option<string> {
    match body
    case MessageBody(m) => Some(m)
    case OrderBody(_) => None
    case VerificationBody(_, m) => Some(m)
  }

  /** `data.success` read as a condition: only a verification body can carry `true`. */
  predicate SuccessOf(body: Body) {
    body.VerificationBody? && body.success
  }

  /** The body posted to /verify-payment; a field the client leaves out is absent. */
  datatype PaymentFields = PaymentFields(
    orderId: Option<string>,
    paymentId: Option<string>,
    signature: Option<string>,
    amount: Option<int>)
}

=== FILE: wrappers.dfy ===
/** Absent-or-present values: JavaScript's `null`/`undefined` beside a present value. */
module Wrappers {

  datatype Option<+T> = None | Some(value: T)
}
